=== FILE: README.md ===
# hwdmedia-amf AMF0 codec, modelled in Dafny

hwdmedia-amf is a Java library that reads and writes AMF0, the binary format
Flash and RTMP use to exchange typed values. `Amf0Writer` turns Java values
(numbers, booleans, strings, dates, XML documents, arrays, collections, maps
and arbitrary objects via their public fields) into AMF0 bytes, one `write` at
a time. `Amf0Reader` walks a byte buffer and hands back Java values, keeping a
table of every map and list it has built.

The project models both classes and the marker table of `AmfTypes`:

- `amf_types.dfy` (module `AmfTypes`): the eighteen type markers.
- `wire.dfy` (module `Wire`): the bytes underneath.
  - big-endian integers and Java's signed reads
  - the writer's per-code-unit UTF-8 and `writeUTF`'s modified UTF-8
  - the strict UTF-8 decoding the reader relies on
- `values.dfy` (module `Values`): the values each side deals in, and `HashMap.put` as a function.
- `encoding.dfy` (module `Encoding`): what each `write` appends, as functions.
  - A write can throw half-way, so each result records the bytes appended and whether the write completed.
- `decoding.dfy` (module `Decoding`): what each read returns, as functions of the buffer, the position and the reference table.
  - A read returns either a value, the new position and the new table, or the exception that ends the read.
- `writer.dfy` (module `Amf0Writer`): class `Encoder`, whose field `out` is the output stream's contents.
  - Each method is proved to append what `Encoding` says.
  - `WriteString` fills an `array` byte by byte, as the source does.
- `reader.dfy` (module `Amf0Reader`): class `Decoder`, with a constant buffer, a mutable position and a mutable reference table.
  - Each method is proved to do what `Decoding` says, including where it leaves the position and the table.
  - The object, ECMA-array and strict-array loops carry invariants tying them to those functions.
- `roundtrip.dfy` (module `RoundTrip`): the writer and the reader together.
  - Every *portable* value written is read back as its expected reader value.
  - The reference table grows by the maps and lists read, innermost first.
  - Further lemmas show the values that do not come back:
    - strings of 32768–65535 bytes;
    - strings with surrogates;
    - keys and field names holding U+0000, which writeUTF writes as C0 80;
    - XML documents, whose read never stops where the write ended, and which fail outright when the write is last in the buffer.

The behaviour modelled is the code's, including where it departs from AMF0 as
published:

- A short string's length is read as a *signed* 16-bit value.
- `readReference` compares the key the wrong way round, so no reference ever resolves.
- An ECMA array is read without its end marker.
- An object's key/value loop stops at the byte 0x09 whatever key precedes it.
- A negative array count reads as an empty array.
- An XML document is written with a 16-bit length and read with a 32-bit one.

## Model

| member | source | states |
|---|---|---|
| AmfTypes.Markers | src/main/java/com/hwdmedia/amf/AmfTypes.java:16-33 | there are eighteen AMF0 markers |
| AmfTypes.MarkersAreDense | src/main/java/com/hwdmedia/amf/AmfTypes.java:16-33 | the markers are 0x00 to 0x11 in declaration order, so no two are equal |
| Wire.Be16 | src/main/java/com/hwdmedia/amf/Amf0Writer.java:173-174 | a 16-bit big-endian length is two bytes |
| Wire.Be32 | src/main/java/com/hwdmedia/amf/Amf0Writer.java:170-174 | a 32-bit big-endian length is four bytes |
| Wire.Signed8 | src/main/java/com/hwdmedia/amf/Amf0Reader.java:62-64 | a Java byte lies in [-128, 128), is negative exactly when the octet is 0x80 or above, and agrees with the octet modulo 256 |
| Wire.Signed16 | src/main/java/com/hwdmedia/amf/Amf0Reader.java:121 | getShort gives a value in [-32768, 32768), negative exactly when the high bit is set |
| Wire.Signed32 | src/main/java/com/hwdmedia/amf/Amf0Reader.java:132 | getInt gives a value in [-2^31, 2^31), negative exactly when the high bit is set |
| Wire.Signed16OfBe16 | src/main/java/com/hwdmedia/amf/Amf0Reader.java:121 | reading back a written 16-bit length gives its low 16 bits, minus 65536 when they are 32768 or above |
| Wire.Signed32OfBe32 | src/main/java/com/hwdmedia/amf/Amf0Reader.java:132 | getInt inverts writeInt on every Java int |
| Wire.UnitBytes | src/main/java/com/hwdmedia/amf/Amf0Writer.java:176-188 | each code unit takes the number of bytes the length loop counts for it |
| Wire.Utf8LengthCountsBytes | src/main/java/com/hwdmedia/amf/Amf0Writer.java:143-152 | `utflen` equals the number of bytes the filling loop writes |
| Wire.Utf8BytesAppend | src/main/java/com/hwdmedia/amf/Amf0Writer.java:176-188 | the bytes of a concatenation are the concatenation of the bytes |
| Wire.Utf8LengthAppend | src/main/java/com/hwdmedia/amf/Amf0Writer.java:143-152 | the byte count is additive over concatenation |
| Wire.ModifiedUtf8WithoutNul | src/main/java/com/hwdmedia/amf/Amf0Writer.java:277 | without NUL units, writeUTF's modified UTF-8 equals writeString's UTF-8 |
| Wire.UnitDecodes | src/main/java/com/hwdmedia/amf/Amf0Reader.java:124 | the UTF-8 decoder reads back any non-surrogate unit's bytes and continues after them |
| Wire.SurrogateRejected | src/main/java/com/hwdmedia/amf/Amf0Reader.java:124 | the bytes the writer emits for a lone surrogate are not well-formed UTF-8 |
| Wire.DecodeEncodedPrefix | src/main/java/com/hwdmedia/amf/Amf0Reader.java:124 | decoding surrogate-free encoded units followed by more bytes yields those units, then the rest's decoding |
| Wire.Utf8RoundTrip | src/main/java/com/hwdmedia/amf/Amf0Reader.java:124 | decoding the writer's bytes gives the text back if and only if it holds no surrogate |
| Wire.ModifiedUtf8BytesAppend | src/main/java/com/hwdmedia/amf/Amf0Writer.java:277 | writeUTF's modified UTF-8 of a concatenation is the concatenation of the parts' |
| Wire.NulRejected | src/main/java/com/hwdmedia/amf/Amf0Reader.java:124 | writeUTF's C0 80 for U+0000 is rejected by the UTF-8 decoder |
| Wire.NulBreaksDecoding | src/main/java/com/hwdmedia/amf/Amf0Reader.java:124 | the modified UTF-8 of a text holding U+0000 does not decode |
| Wire.SurrogateBreaksDecoding | src/main/java/com/hwdmedia/amf/Amf0Reader.java:124 | a text with a surrogate does not decode |
| Values.DecodeText | src/main/java/com/hwdmedia/amf/Amf0Reader.java:124 | decoded text is in the modelled unit form exactly when the bytes are well-formed UTF-8 |
| Values.PutAllCons | src/main/java/com/hwdmedia/amf/Amf0Reader.java:151 | the puts are applied from the first to the last |
| Values.PutAllKeys | src/main/java/com/hwdmedia/amf/Amf0Reader.java:167 | after the puts the map's keys are the old keys plus every key put |
| Values.PutAllLast | src/main/java/com/hwdmedia/amf/Amf0Reader.java:167 | a key maps to the value of its last put |
| Values.PutAllUntouched | src/main/java/com/hwdmedia/amf/Amf0Reader.java:151 | a key that is not put keeps its value |
| Encoding.Then | src/main/java/com/hwdmedia/amf/Amf0Writer.java:51-86 | two writes in sequence complete iff both do; after a throw nothing more is written |
| Encoding.Utf | src/main/java/com/hwdmedia/amf/Amf0Writer.java:277 | writeUTF succeeds iff the modified UTF-8 fits in 65535 bytes, writes nothing when it does not, and otherwise writes a length of two bytes and then the payload |
| Encoding.StringBytesLength | src/main/java/com/hwdmedia/amf/Amf0Writer.java:156-162 | writeString's output is `utflen` + 3 bytes up to 65535 and `utflen` + 5 above |
| Encoding.ItemsWritten | src/main/java/com/hwdmedia/amf/Amf0Writer.java:287-295 | a strict array completes iff its elements do, and its bytes are the header and then the elements' bytes |
| Encoding.EntriesWritten | src/main/java/com/hwdmedia/amf/Amf0Writer.java:270-280 | an ECMA array completes iff its entries do, and its bytes are the header and then the entries' bytes |
| Encoding.FieldsWritten | src/main/java/com/hwdmedia/amf/Amf0Writer.java:302-317 | an object completes iff its fields do; only then is the end sequence 00 00 09 written |
| Encoding.ItemsStep | src/main/java/com/hwdmedia/amf/Amf0Writer.java:291-294 | one loop turn appends the next element's bytes |
| Encoding.EntriesStep | src/main/java/com/hwdmedia/amf/Amf0Writer.java:274-279 | one loop turn appends the next key by writeUTF and then its value |
| Encoding.FieldsStep | src/main/java/com/hwdmedia/amf/Amf0Writer.java:305-312 | one loop turn appends the next field |
| Encoding.ItemsStopAtFailure | src/main/java/com/hwdmedia/amf/Amf0Writer.java:291-294 | once an element throws, the later elements write nothing |
| Encoding.EntriesStopAtFailure | src/main/java/com/hwdmedia/amf/Amf0Writer.java:274-279 | once an entry throws, the later entries write nothing |
| Encoding.FieldsStopAtFailure | src/main/java/com/hwdmedia/amf/Amf0Writer.java:305-312 | once a field name throws, the later fields write nothing |
| Encoding.ThenAssoc | src/main/java/com/hwdmedia/amf/Amf0Writer.java:51-86 | sequencing writes is associative |
| Encoding.ItemsCons | src/main/java/com/hwdmedia/amf/Amf0Writer.java:291-294 | writing elements is writing the first and then the rest |
| Encoding.EntriesCons | src/main/java/com/hwdmedia/amf/Amf0Writer.java:274-279 | writing entries is writing the first key and value and then the rest |
| Encoding.FieldsCons | src/main/java/com/hwdmedia/amf/Amf0Writer.java:305-312 | writing fields is writing the first and then the rest |
| Encoding.ItemsOk | src/main/java/com/hwdmedia/amf/Amf0Writer.java:291-294 | the elements complete iff every element does |
| Encoding.EntriesOk | src/main/java/com/hwdmedia/amf/Amf0Writer.java:274-279 | the entries complete iff every key fits writeUTF and every value completes |
| Encoding.FieldsOk | src/main/java/com/hwdmedia/amf/Amf0Writer.java:305-312 | the fields complete iff every name fits writeUTF; a failed value is caught |
| Encoding.StartsWithMarker | src/main/java/com/hwdmedia/amf/Amf0Writer.java:51-86 | every write starts with a marker byte below 0x80 other than 0x09 |
| Amf0Writer.Encoder.constructor | src/main/java/com/hwdmedia/amf/Amf0Writer.java:42-45 | a new writer has written nothing |
| Amf0Writer.Encoder.GetBytes | src/main/java/com/hwdmedia/amf/Amf0Writer.java:92-94 | getBytes returns everything written so far |
| Amf0Writer.Encoder.Write | src/main/java/com/hwdmedia/amf/Amf0Writer.java:51-86 | write appends exactly the value's encoding and reports whether it completed |
| Amf0Writer.Encoder.WriteDouble | src/main/java/com/hwdmedia/amf/Amf0Writer.java:117-120 | appends 0x00 and the 8 bytes of the double |
| Amf0Writer.Encoder.WriteBoolean | src/main/java/com/hwdmedia/amf/Amf0Writer.java:126-129 | appends 0x01 and then 1 or 0 |
| Amf0Writer.Encoder.WriteString | src/main/java/com/hwdmedia/amf/Amf0Writer.java:135-190 | appends the short or long header for `utflen`, then each unit's bytes |
| Amf0Writer.Encoder.WriteDate | src/main/java/com/hwdmedia/amf/Amf0Writer.java:197-202 | appends 0x0b, the 8 bytes of the time and a zero 16-bit time zone |
| Amf0Writer.Encoder.WriteUtf | src/main/java/com/hwdmedia/amf/Amf0Writer.java:338 | appends writeUTF's bytes, or nothing when it throws |
| Amf0Writer.Encoder.WriteXmlDocument | src/main/java/com/hwdmedia/amf/Amf0Writer.java:325-339 | appends 0x0f and the text by writeUTF, reporting the writeUTF failure |
| Amf0Writer.Encoder.WriteCollection | src/main/java/com/hwdmedia/amf/Amf0Writer.java:256-263 | appends an array or a collection's strict-array encoding, stopping at the first failure |
| Amf0Writer.Encoder.WriteEcmaArray | src/main/java/com/hwdmedia/amf/Amf0Writer.java:270-280 | appends the map's ECMA-array encoding, stopping at the first failure |
| Amf0Writer.Encoder.WriteObject | src/main/java/com/hwdmedia/amf/Amf0Writer.java:302-317 | appends the object encoding, stopping if a field name fails |
| Amf0Writer.Encoder.WriteFieldValue | src/main/java/com/hwdmedia/amf/Amf0Writer.java:307-311 | appends the field's value, with a null marker after a failed read or write |
| Amf0Writer.Utf8LengthOf | src/main/java/com/hwdmedia/amf/Amf0Writer.java:143-152 | the counting loop computes the byte length of the text |
| Amf0Writer.PutUnit | src/main/java/com/hwdmedia/amf/Amf0Writer.java:177-187 | one filling step stores the unit's bytes after those already stored |
| Amf0Writer.FillStep | src/main/java/com/hwdmedia/amf/Amf0Writer.java:176-188 | the filled prefix grows by the next unit's bytes and stays within `utflen` |
| Decoding.ParseChars | src/main/java/com/hwdmedia/amf/Amf0Reader.java:122-124 | reading `size` bytes succeeds iff 0 <= size <= the remaining bytes. A negative size throws NegativeArraySize. On success the result is the decoded bytes and the position moves by `size` |
| Decoding.ParseString | src/main/java/com/hwdmedia/amf/Amf0Reader.java:120-125 | a short string consumes its 2-byte length and stays in the buffer |
| Decoding.ParseLongString | src/main/java/com/hwdmedia/amf/Amf0Reader.java:131-136 | a long string consumes its 4-byte length and stays in the buffer |
| Decoding.ParseValue | src/main/java/com/hwdmedia/amf/Amf0Reader.java:62-64 | a read consumes at least the marker, stays in the buffer and only appends to the table |
| Decoding.ParseMarked | src/main/java/com/hwdmedia/amf/Amf0Reader.java:71-114 | dispatch stays in the buffer and only appends to the table |
| Decoding.RejectedMarkers | src/main/java/com/hwdmedia/amf/Amf0Reader.java:108-112 | marker 0x10 fails with the typed-object error; 0x04, 0x09, 0x0e, 0x11, anything above 0x11 and any negative marker fail as unsupported |
| Decoding.HighMarkerRejected | src/main/java/com/hwdmedia/amf/Amf0Reader.java:62-64 | a marker byte of 0x80 or above is read as a negative Java byte and rejected as unsupported with that negative value |
| Decoding.NullLikeMarkers | src/main/java/com/hwdmedia/amf/Amf0Reader.java:85-88 | null, undefined and unsupported (0x05, 0x06, 0x0d) read as null and consume nothing after the marker |
| Decoding.BooleanByte | src/main/java/com/hwdmedia/amf/Amf0Reader.java:76-77 | a boolean is one byte and is true for any nonzero value; with no byte left the read underflows |
| Decoding.ParseReference | src/main/java/com/hwdmedia/amf/Amf0Reader.java:193-199 | a reference always fails: an invalid key when key <= table size, out of bounds otherwise |
| Decoding.ParseObject | src/main/java/com/hwdmedia/amf/Amf0Reader.java:143-155 | an object stays in the buffer and only appends to the table |
| Decoding.ParseFields | src/main/java/com/hwdmedia/amf/Amf0Reader.java:145-152 | the key/value loop consumes at least one byte and only appends to the table |
| Decoding.ObjectOfFields | src/main/java/com/hwdmedia/amf/Amf0Reader.java:143-155 | an object is its fields' map, appended to the table after them |
| Decoding.FieldsTurn | src/main/java/com/hwdmedia/amf/Amf0Reader.java:146-150 | after a key, the end of the buffer fails, and the byte 0x09 ends the loop whatever the key was |
| Decoding.FieldTurn | src/main/java/com/hwdmedia/amf/Amf0Reader.java:146-151 | after a key and any other type byte, a value is read with that marker and put under the key, or its failure ends the loop |
| Decoding.ParseEcmaArray | src/main/java/com/hwdmedia/amf/Amf0Reader.java:162-171 | an ECMA array consumes its count and only appends to the table |
| Decoding.ParseEntries | src/main/java/com/hwdmedia/amf/Amf0Reader.java:165-168 | the entry loop stays in the buffer and only appends to the table |
| Decoding.EcmaArrayOfEntries | src/main/java/com/hwdmedia/amf/Amf0Reader.java:162-171 | an ECMA array is the map of `count` entries, appended to the table after them |
| Decoding.ParseStrictArray | src/main/java/com/hwdmedia/amf/Amf0Reader.java:178-186 | a strict array consumes its count and only appends to the table |
| Decoding.ParseItems | src/main/java/com/hwdmedia/amf/Amf0Reader.java:181-183 | the element loop stays in the buffer and only appends to the table |
| Amf0Reader.Decoder.constructor | src/main/java/com/hwdmedia/amf/Amf0Reader.java:47-49 | a new reader starts at position 0 with an empty table |
| Amf0Reader.Decoder.HasNext | src/main/java/com/hwdmedia/amf/Amf0Reader.java:55-57 | hasNext is true iff bytes remain |
| Amf0Reader.Decoder.Read | src/main/java/com/hwdmedia/amf/Amf0Reader.java:62-64 | read returns what ParseValue gives and leaves the position and table it gives |
| Amf0Reader.Decoder.ReadMarked | src/main/java/com/hwdmedia/amf/Amf0Reader.java:71-114 | the dispatch returns what ParseMarked gives |
| Amf0Reader.Decoder.ReadChars | src/main/java/com/hwdmedia/amf/Amf0Reader.java:122-124 | reading `size` bytes follows ParseChars and leaves the table alone |
| Amf0Reader.Decoder.ReadString | src/main/java/com/hwdmedia/amf/Amf0Reader.java:120-125 | readString follows ParseString |
| Amf0Reader.Decoder.ReadLongString | src/main/java/com/hwdmedia/amf/Amf0Reader.java:131-136 | readLongString follows ParseLongString |
| Amf0Reader.Decoder.ReadObject | src/main/java/com/hwdmedia/amf/Amf0Reader.java:143-155 | readObject's loop follows ParseObject |
| Amf0Reader.Decoder.ReadEcmaArray | src/main/java/com/hwdmedia/amf/Amf0Reader.java:162-171 | readEcmaArray's loop follows ParseEcmaArray |
| Amf0Reader.Decoder.ReadStrictArray | src/main/java/com/hwdmedia/amf/Amf0Reader.java:178-186 | readStrictArray's loop follows ParseStrictArray |
| Amf0Reader.Decoder.ReadReference | src/main/java/com/hwdmedia/amf/Amf0Reader.java:193-199 | readReference follows ParseReference, so it always fails and leaves the table alone |
| Amf0Reader.Decoder.ReadDate | src/main/java/com/hwdmedia/amf/Amf0Reader.java:205-210 | readDate takes 8 bytes of time, skips 2 bytes of time zone and leaves the table alone |
| RoundTrip.KeyBytes | src/main/java/com/hwdmedia/amf/Amf0Writer.java:277 | a portable key's writeUTF bytes are its UTF-8 with a 16-bit length |
| RoundTrip.PortableWrites | src/main/java/com/hwdmedia/amf/Amf0Writer.java:51-86 | writing a portable value, which is a finite tree, never throws |
| RoundTrip.Signed16Small | src/main/java/com/hwdmedia/amf/Amf0Reader.java:121 | lengths below 32768 read back unchanged |
| RoundTrip.ShortStringAt | src/main/java/com/hwdmedia/amf/Amf0Reader.java:120-125 | readString reads back a 16-bit length below 32768 and its bytes |
| RoundTrip.LongStringAt | src/main/java/com/hwdmedia/amf/Amf0Reader.java:131-136 | readLongString reads back a 32-bit length and its bytes |
| RoundTrip.KeyRoundTrip | src/main/java/com/hwdmedia/amf/Amf0Reader.java:166 | readString reads back a portable key written by writeUTF |
| RoundTrip.StringRoundTrip | src/main/java/com/hwdmedia/amf/Amf0Writer.java:135-190 | a portable string written by writeString reads back as the same string |
| RoundTrip.StrictArrayAt | src/main/java/com/hwdmedia/amf/Amf0Reader.java:178-186 | after a strict-array header the list of the elements read is returned and appended to the table |
| RoundTrip.EcmaArrayAt | src/main/java/com/hwdmedia/amf/Amf0Reader.java:162-171 | after an ECMA-array header the map of the entries read is returned and appended to the table |
| RoundTrip.ObjectAt | src/main/java/com/hwdmedia/amf/Amf0Reader.java:143-155 | after 0x03 the map of the fields read is returned and appended to the table |
| RoundTrip.FieldsEndAt | src/main/java/com/hwdmedia/amf/Amf0Reader.java:146-149 | the writer's end sequence 00 00 09 ends the reader's field loop |
| RoundTrip.DecodeEncoded | src/main/java/com/hwdmedia/amf/Amf0Reader.java:62-64 | read on the bytes of a written portable value returns its expected value and ends right after those bytes. The table grows by the maps and lists read, innermost first |
| RoundTrip.DecodeScalar | src/main/java/com/hwdmedia/amf/Amf0Reader.java:73-88 | numbers, booleans, dates and null read back unchanged |
| RoundTrip.DecodeStrictArray | src/main/java/com/hwdmedia/amf/Amf0Reader.java:178-186 | a written collection reads back as the list of its elements' expected values |
| RoundTrip.DecodeEcmaArray | src/main/java/com/hwdmedia/amf/Amf0Reader.java:162-171 | a written map reads back as the puts of its entries in order |
| RoundTrip.DecodeObject | src/main/java/com/hwdmedia/amf/Amf0Reader.java:143-155 | a written object reads back as the puts of its fields, an unreadable field as null |
| RoundTrip.ItemsDecode | src/main/java/com/hwdmedia/amf/Amf0Reader.java:181-183 | the element loop reads back every written element |
| RoundTrip.EntriesDecode | src/main/java/com/hwdmedia/amf/Amf0Reader.java:165-168 | the entry loop reads back every written entry |
| RoundTrip.FieldsDecode | src/main/java/com/hwdmedia/amf/Amf0Reader.java:145-152 | the field loop reads back every written field and stops at the writer's end sequence |
| RoundTrip.FieldValueDecode | src/main/java/com/hwdmedia/amf/Amf0Writer.java:307-311 | a field's value, or the null written for an unreadable field, reads back as expected and never starts with 0x09 |
| RoundTrip.StreamRoundTrip | src/main/java/com/hwdmedia/amf/Amf0Reader.java:55-64 | reading with hasNext/read until the end gives back every portable value written, in order |
| RoundTrip.ExpectedItemsAt | src/main/java/com/hwdmedia/amf/Amf0Reader.java:181-183 | the list read has one element per element written, in the same order |
| RoundTrip.EntryPairsAt | src/main/java/com/hwdmedia/amf/Amf0Reader.java:165-168 | the i-th put is the i-th key written with its value |
| RoundTrip.EcmaArrayLastWins | src/main/java/com/hwdmedia/amf/Amf0Reader.java:167 | a written key maps to the value of its last occurrence |
| RoundTrip.CompositeIsLastReference | src/main/java/com/hwdmedia/amf/Amf0Reader.java:153 | reading a map or list appends it to the table last |
| RoundTrip.NegativeShortLength | src/main/java/com/hwdmedia/amf/Amf0Reader.java:121-122 | a 16-bit length of 32768 or more fails as a negative array size |
| RoundTrip.MidLengthStringFails | src/main/java/com/hwdmedia/amf/Amf0Writer.java:156-158 | a string of 32768 to 65535 bytes, written in the short form, fails to read |
| RoundTrip.NulKeyChanges | src/main/java/com/hwdmedia/amf/Amf0Reader.java:120-124 | a key or field name holding U+0000, written by writeUTF, is read back by readString as raw bytes, not as the name written |
| RoundTrip.SurrogateStringChanges | src/main/java/com/hwdmedia/amf/Amf0Writer.java:180-183 | a string with a surrogate reads back as bytes that are not valid UTF-8, not as the string written |
| RoundTrip.XmlNeverReadsBack | src/main/java/com/hwdmedia/amf/Amf0Reader.java:217-218 | wherever an XML document that writeUTF accepts sits in a buffer, a read of it that succeeds ends past the bytes written; when the write is last in the buffer, the read fails and so does reading the stream |
| RoundTrip.ShortLengthReadLong | src/main/java/com/hwdmedia/amf/Amf0Reader.java:131-136 | readLongString over a 16-bit length and its payload, in any buffer, never stops at the payload's end: when it succeeds it has read further, and when nothing follows the payload it fails |
| RoundTrip.XmlDoesNotReadBack | src/main/java/com/hwdmedia/amf/Amf0Reader.java:217-218 | for the text "ab" the writer emits 0f 00 02 61 62, and reading it underflows |
| RoundTrip.NonPositiveCount | src/main/java/com/hwdmedia/amf/Amf0Reader.java:179-185 | a strict array with a zero or negative count is read as an empty list and appended to the table |
| RoundTrip.NonPositiveEntries | src/main/java/com/hwdmedia/amf/Amf0Reader.java:162-171 | an ECMA array with a zero or negative count is read as an empty map and appended to the table |

## Left out

- Doubles are opaque 8-byte words.
  - Neither side does arithmetic on them.
  - `Number.doubleValue()` and the `(long)` cast of `readDate` are not modelled.
  - Neither is `Date.getTime()` as a double.
- XML is kept as the transformer's text on the writer side and the decoded text on the reader side.
  - The DOM parse and transform are not modelled.
  - Their AmfExceptions are not modelled either.
- Reflection is not modelled.
  - The host-type dispatch of `write` is taken as already done: the `Value` variant is the Java class's branch.
  - A collection or an `Object[]` is its elements in iteration order.
  - A map is its entries in key-set iteration order, with `k.toString()` already applied.
  - An object is its public fields in `getFields()` order, each readable or not.
- `writePrimitiveArray` and `writeCharsArrayAsString` are not modelled: the `clazz.isPrimitive()` and `clazz.equals(Character.class)` tests are never true for an array class, so they cannot be reached.
- A primitive array such as `int[]` is not a `Value`. In the source it reaches the `(Object[]) value` cast at Amf0Writer.java:73, which throws ClassCastException before anything is written. The model has no such write.
- A map with a null key is not a `Value` either: `Entry.key` is always text. In the source, `k.toString()` at Amf0Writer.java:277 throws NullPointerException, after the ECMA header and the earlier entries are already written.
- A Java value that reaches itself has no `Value`, since a `Value` is a finite tree. Examples:
  - a `Map` or `Collection` that contains itself;
  - an `Object[]` that holds itself;
  - an object whose public fields lead back to it. Every enum constant is one, because `getFields()` at Amf0Writer.java:305 includes the public static constants.
  - The writer keeps no reference table, so on such a value `write` recurses without end through Amf0Writer.java:76-80, 261, 278 and 308 until a StackOverflowError. The catch at :309 does not catch that error, and the bytes already written stay in the stream. This unbounded recursion and its error are not modelled.
  - Shared substructure that is not cyclic is written once per occurrence, in the source and in the model alike.
- Values.DecodeText: malformed UTF-8 and the 4-byte form are kept as raw bytes. Java's replacement-character decoding is not modelled.
- Amf0Reader.Decoder.Read: after an exception the position and the table are left unspecified. The source leaves them wherever the failed read stopped.
- Amf0Writer.Encoder.WriteString: `utflen` is unbounded. The Java `int` overflow of a string over 2^31 bytes is not modelled.
- The ByteBuffer is its bytes from the initial position to the limit; `Amf0Reader(ByteBuffer)` is the same constructor on those bytes.
- `getByteBuffer` and `close` are not modelled: they wrap or release the stream without changing its contents.
- A `Calendar` argument is taken as already converted to its `Date`.
- Values.PutAll: keys that are not well-formed UTF-8 stay distinct in the model, as `Unmodelled` raw bytes. In Java (Amf0Reader.java:124) every malformed sequence decodes to U+FFFD. So two different malformed keys such as FF and FE, or a malformed key and the well-formed EF BF BD, become one HashMap entry, where the last put wins. The model keeps them as separate keys.
- Amf0Reader.Decoder.ReadReference: the successful branch, `references.get(key)` with `key` greater than the table size, is modelled as the IndexOutOfBoundsException it always throws.

=== FILE: amf_types.dfy ===
/** The AMF0 type markers shared by the reader and the writer
    (section 2.1 of the AMF 0 specification). */
module AmfTypes {

  /** An octet of the wire format, as an unsigned value. */
  type byte = x: int | 0 <= x < 0x100

  const NumberMarker: byte := 0x00
  const BooleanMarker: byte := 0x01
  const StringMarker: byte := 0x02
  const ObjectMarker: byte := 0x03
  /** Reserved, not supported. */
  const MovieclipMarker: byte := 0x04
  const NullMarker: byte := 0x05
  const UndefinedMarker: byte := 0x06
  const ReferenceMarker: byte := 0x07
  const EcmaArrayMarker: byte := 0x08
  const ObjectEndMarker: byte := 0x09
  const StrictArrayMarker: byte := 0x0a
  const DateMarker: byte := 0x0b
  const LongStringMarker: byte := 0x0c
  const UnsupportedMarker: byte := 0x0d
  /** Reserved, not supported. */
  const RecordsetMarker: byte := 0x0e
  const XmlDocumentMarker: byte := 0x0f
  const TypedObjectMarker: byte := 0x10
  const AvmPlusObjectMarker: byte := 0x11

  /** The markers in declaration order. */
  function Markers(): (table: seq<byte>)
    ensures |table| == 18
  {
    [NumberMarker, BooleanMarker, StringMarker, ObjectMarker, MovieclipMarker,
     NullMarker, UndefinedMarker, ReferenceMarker, EcmaArrayMarker, ObjectEndMarker,
     StrictArrayMarker, DateMarker, LongStringMarker, UnsupportedMarker, RecordsetMarker,
     XmlDocumentMarker, TypedObjectMarker, AvmPlusObjectMarker]
  }

  /** The markers are exactly 0x00 through 0x11 in declaration order, hence pairwise distinct. */
  lemma MarkersAreDense()
    ensures forall i | 0 <= i < |Markers()| :: Markers()[i] == i
    ensures forall i, j | 0 <= i < j < |Markers()| :: Markers()[i] != Markers()[j]
  {
  }
}

=== FILE: decoding.dfy ===
/** What Amf0Reader does, as functions of the buffer, the cursor position and the
    reference table: each returns the value read, where the cursor ends up and the
    table after it, or the exception that ends the read. */
module Decoding {
  import opened AmfTypes
  import opened Wire
  import opened Values

  /** The exceptions a read can end with. */
  datatype Error =
    | Truncated                      // BufferUnderflowException: fewer bytes remain than a get needs
    | NegativeArraySize(size: int)   // `new byte[size]` with a negative signed length
    | TypedObject                    // AmfException for marker 0x10
    | UnsupportedType(marker: int)   // AmfException for a marker without a case
    | InvalidReferenceKey(key: int)  // AmfException from readReference
    | ReferenceOutOfBounds(key: int) // IndexOutOfBoundsException from references.get

  datatype Result<T> = Ok(value: T) | Err(error: Error)

  /** A string read and the position after it. */
  datatype Got<T> = Got(value: T, next: nat)

  /** A value read, the position after it and the reference table after it. */
  datatype Parsed<T> = Parsed(value: T, next: nat, refs: seq<DValue>)

  /** A method's outcome agrees with a specification result: the same value or the
      same exception, and on success the cursor and the table it describes. */
  predicate Follows<T(==)>(spec: Result<Parsed<T>>, r: Result<T>, pos: nat, refs: seq<DValue>)
  {
    match spec
    case Err(e) => r == Err(e)
    case Ok(p) => r == Ok(p.value) && pos == p.next && refs == p.refs
  }

  predicate FollowsGot<T(==)>(spec: Result<Got<T>>, r: Result<T>, pos: nat)
  {
    match spec
    case Err(e) => r == Err(e)
    case Ok(g) => r == Ok(g.value) && pos == g.next
  }

  // ---------------------------------------------------------------------------
  // Strings
  // ---------------------------------------------------------------------------

  /** `new byte[size]`, `data.get(chars)` and `new String(chars, UTF_8)`: a negative
      size fails first, then a size larger than what remains. */
  function ParseChars(data: seq<byte>, pos: nat, size: int): (r: Result<Got<Text>>)
    requires pos <= |data|
    ensures r.Ok? <==> 0 <= size <= |data| - pos
    ensures r.Ok? ==> r.value.next == pos + size && r.value.value == DecodeText(data[pos..pos + size])
    ensures size < 0 ==> r == Err(NegativeArraySize(size))
  {
    if size < 0 then Err(NegativeArraySize(size))
    else if size > |data| - pos then Err(Truncated)
    else Ok(Got(DecodeText(data[pos..pos + size]), pos + size))
  }

  /** readString: a signed 16-bit length, then that many bytes. */
  function ParseString(data: seq<byte>, pos: nat): (r: Result<Got<Text>>)
    requires pos <= |data|
    ensures r.Ok? ==> pos + 2 <= r.value.next <= |data|
  {
    if |data| - pos < 2 then Err(Truncated)
    else ParseChars(data, pos + 2, Signed16(data[pos..pos + 2]))
  }

  /** readLongString: a signed 32-bit length, then that many bytes. */
  function ParseLongString(data: seq<byte>, pos: nat): (r: Result<Got<Text>>)
    requires pos <= |data|
    ensures r.Ok? ==> pos + 4 <= r.value.next <= |data|
  {
    if |data| - pos < 4 then Err(Truncated)
    else ParseChars(data, pos + 4, Signed32(data[pos..pos + 4]))
  }

  // ---------------------------------------------------------------------------
  // Values
  // ---------------------------------------------------------------------------

  /** read(): the marker byte, as a signed Java byte, then read(int). */
  function ParseValue(data: seq<byte>, pos: nat, refs: seq<DValue>): (r: Result<Parsed<DValue>>)
    requires pos <= |data|
    ensures r.Ok? ==> pos < r.value.next <= |data| && refs <= r.value.refs
    decreases |data| - pos, 3
  {
    if pos == |data| then Err(Truncated)
    else ParseMarked(data, Signed8(data[pos]), pos + 1, refs)
  }

  /** read(int): dispatch on the marker. */
  function ParseMarked(data: seq<byte>, marker: int, pos: nat, refs: seq<DValue>): (r: Result<Parsed<DValue>>)
    requires pos <= |data|
    ensures r.Ok? ==> pos <= r.value.next <= |data| && refs <= r.value.refs
    decreases |data| - pos, 2
  {
    if marker == NumberMarker then
      if |data| - pos < 8 then Err(Truncated) else Ok(Parsed(DNumber(data[pos..pos + 8]), pos + 8, refs))
    else if marker == BooleanMarker then
      if |data| - pos < 1 then Err(Truncated) else Ok(Parsed(DBoolean(data[pos] != 0), pos + 1, refs))
    else if marker == StringMarker then
      match ParseString(data, pos)
      case Err(e) => Err(e)
      case Ok(s) => Ok(Parsed(DString(s.value), s.next, refs))
    else if marker == ObjectMarker then
      ParseObject(data, pos, refs)
    else if marker == NullMarker || marker == UndefinedMarker || marker == UnsupportedMarker then
      Ok(Parsed(DNull, pos, refs))
    else if marker == ReferenceMarker then
      ParseReference(data, pos, refs)
    else if marker == EcmaArrayMarker then
      ParseEcmaArray(data, pos, refs)
    else if marker == StrictArrayMarker then
      ParseStrictArray(data, pos, refs)
    else if marker == DateMarker then
      if |data| - pos < 10 then Err(Truncated) else Ok(Parsed(DDate(data[pos..pos + 8]), pos + 10, refs))
    else if marker == LongStringMarker then
      match ParseLongString(data, pos)
      case Err(e) => Err(e)
      case Ok(s) => Ok(Parsed(DString(s.value), s.next, refs))
    else if marker == XmlDocumentMarker then
      match ParseLongString(data, pos)
      case Err(e) => Err(e)
      case Ok(s) => Ok(Parsed(DXml(s.value), s.next, refs))
    else if marker == TypedObjectMarker then
      Err(TypedObject)
    else
      Err(UnsupportedType(marker))
  }

  /** The markers read(int) has no case for throw "Unsupported marker type": the
      reserved 0x04 and 0x0e, the object end 0x09, 0x11, anything above 0x11, and
      every negative signed byte. The typed-object marker 0x10 has its own error. */
  lemma RejectedMarkers(data: seq<byte>, marker: int, pos: nat, refs: seq<DValue>)
    requires pos <= |data|
    ensures marker == TypedObjectMarker ==> ParseMarked(data, marker, pos, refs) == Err(TypedObject)
    ensures marker < 0 || marker > AvmPlusObjectMarker || marker == MovieclipMarker || marker == ObjectEndMarker
            || marker == RecordsetMarker || marker == AvmPlusObjectMarker
        ==> ParseMarked(data, marker, pos, refs) == Err(UnsupportedType(marker))
  {
  }

  /** A marker byte of 0x80 or above is a negative Java byte, so read() rejects it. */
  lemma HighMarkerRejected(data: seq<byte>, pos: nat, refs: seq<DValue>)
    requires pos < |data| && data[pos] >= 0x80
    ensures ParseValue(data, pos, refs) == Err(UnsupportedType(data[pos] as int - 0x100))
  {
    RejectedMarkers(data, Signed8(data[pos]), pos + 1, refs);
  }

  /** Null, undefined and unsupported all read as null and consume nothing after
      the marker. */
  lemma NullLikeMarkers(data: seq<byte>, marker: int, pos: nat, refs: seq<DValue>)
    requires pos <= |data|
    ensures marker == NullMarker || marker == UndefinedMarker || marker == UnsupportedMarker
        ==> ParseMarked(data, marker, pos, refs) == Ok(Parsed(DNull, pos, refs))
  {
  }

  /** A boolean is one byte, true for any nonzero value; a missing byte underflows. */
  lemma BooleanByte(data: seq<byte>, pos: nat, refs: seq<DValue>)
    requires pos <= |data|
    ensures pos < |data| ==>
      ParseMarked(data, BooleanMarker, pos, refs) == Ok(Parsed(DBoolean(data[pos] != 0), pos + 1, refs))
    ensures pos == |data| ==> ParseMarked(data, BooleanMarker, pos, refs) == Err(Truncated)
  {
  }

  /** readReference: a signed 16-bit key, then a comparison that is the wrong way
      round, so that no key ever yields a value. */
  function ParseReference(data: seq<byte>, pos: nat, refs: seq<DValue>): (r: Result<Parsed<DValue>>)
    requires pos <= |data|
    ensures r.Err?
    ensures |data| - pos >= 2 ==>
      var key := Signed16(data[pos..pos + 2]);
      r.error == (if key <= |refs| then InvalidReferenceKey(key) else ReferenceOutOfBounds(key))
  {
    if |data| - pos < 2 then Err(Truncated)
    else
      var key := Signed16(data[pos..pos + 2]);
      if |refs| < key then Err(ReferenceOutOfBounds(key))
      else Err(InvalidReferenceKey(key))
  }

  /** readObject: the fields into a fresh map, then the map into the table. */
  function ParseObject(data: seq<byte>, pos: nat, refs: seq<DValue>): (r: Result<Parsed<DValue>>)
    requires pos <= |data|
    ensures r.Ok? ==> pos <= r.value.next <= |data| && refs <= r.value.refs
    decreases |data| - pos, 1
  {
    match ParseFields(data, pos, refs, map[])
    case Err(e) => Err(e)
    case Ok(p) => Ok(Parsed(DMap(p.value), p.next, p.refs + [DMap(p.value)]))
  }

  /** The `while (true)` loop of readObject, from a map already holding `acc`: a
      key, a marker byte, and either the end (marker 0x09, whatever the key) or a
      value put under the key. */
  function ParseFields(data: seq<byte>, pos: nat, refs: seq<DValue>, acc: map<Text, DValue>)
    : (r: Result<Parsed<map<Text, DValue>>>)
    requires pos <= |data|
    ensures r.Ok? ==> pos < r.value.next <= |data| && refs <= r.value.refs
    decreases |data| - pos, 0
  {
    match ParseString(data, pos)
    case Err(e) => Err(e)
    case Ok(key) =>
      if key.next == |data| then Err(Truncated)
      else if data[key.next] == ObjectEndMarker then Ok(Parsed(acc, key.next + 1, refs))
      else
        match ParseMarked(data, Signed8(data[key.next]), key.next + 1, refs)
        case Err(e) => Err(e)
        case Ok(v) => ParseFields(data, v.next, v.refs, acc[key.value := v.value])
  }

  /** readObject's result in terms of its loop's. */
  lemma ObjectOfFields(data: seq<byte>, pos: nat, refs: seq<DValue>)
    requires pos <= |data|
    ensures var f := ParseFields(data, pos, refs, map[]);
      ParseObject(data, pos, refs)
        == if f.Err? then Err(f.error) else Ok(Parsed(DMap(f.value.value), f.value.next, f.value.refs + [DMap(f.value.value)]))
  {
  }

  /** A turn of readObject's loop once its key is read, when no value follows:
      the end of the buffer, or the end marker 0x09, whatever the key. */
  lemma FieldsTurn(data: seq<byte>, pos: nat, refs: seq<DValue>, acc: map<Text, DValue>, key: Got<Text>)
    requires pos <= |data| && ParseString(data, pos) == Ok(key)
    ensures key.next == |data| ==> ParseFields(data, pos, refs, acc) == Err(Truncated)
    ensures key.next < |data| && data[key.next] == ObjectEndMarker ==>
      ParseFields(data, pos, refs, acc) == Ok(Parsed(acc, key.next + 1, refs))
  {
  }

  /** A turn of readObject's loop that reads the value at `m`, just past its
      marker, and puts it under the key. */
  lemma FieldTurn(data: seq<byte>, pos: nat, refs: seq<DValue>, acc: map<Text, DValue>, key: Got<Text>,
                  m: nat, v: Result<Parsed<DValue>>)
    requires pos <= |data| && ParseString(data, pos) == Ok(key)
    requires key.next < |data| && data[key.next] != ObjectEndMarker && m == key.next + 1
    requires ParseMarked(data, Signed8(data[key.next]), m, refs) == v
    ensures v.Err? ==> ParseFields(data, pos, refs, acc) == Err(v.error)
    ensures v.Ok? ==>
      ParseFields(data, pos, refs, acc) == ParseFields(data, v.value.next, v.value.refs, acc[key.value := v.value.value])
  {
  }

  /** readEcmaArray: a signed 32-bit count, that many entries, then the map into
      the table. No end marker is read. */
  function ParseEcmaArray(data: seq<byte>, pos: nat, refs: seq<DValue>): (r: Result<Parsed<DValue>>)
    requires pos <= |data|
    ensures r.Ok? ==> pos + 4 <= r.value.next <= |data| && refs <= r.value.refs
    decreases |data| - pos, 1
  {
    if |data| - pos < 4 then Err(Truncated)
    else
      match ParseEntries(data, pos + 4, refs, Signed32(data[pos..pos + 4]), map[])
      case Err(e) => Err(e)
      case Ok(p) => Ok(Parsed(DMap(p.value), p.next, p.refs + [DMap(p.value)]))
  }

  /** The `for` loop of readEcmaArray with `count` iterations left: a key, then a
      value read with read(). A count of zero or less reads nothing. */
  function ParseEntries(data: seq<byte>, pos: nat, refs: seq<DValue>, count: int, acc: map<Text, DValue>)
    : (r: Result<Parsed<map<Text, DValue>>>)
    requires pos <= |data|
    ensures r.Ok? ==> pos <= r.value.next <= |data| && refs <= r.value.refs
    decreases |data| - pos, 0
  {
    if count <= 0 then Ok(Parsed(acc, pos, refs))
    else
      match ParseString(data, pos)
      case Err(e) => Err(e)
      case Ok(key) =>
        match ParseValue(data, key.next, refs)
        case Err(e) => Err(e)
        case Ok(v) => ParseEntries(data, v.next, v.refs, count - 1, acc[key.value := v.value])
  }

  /** readEcmaArray's result in terms of its loop's. */
  lemma EcmaArrayOfEntries(data: seq<byte>, pos: nat, refs: seq<DValue>)
    requires pos + 4 <= |data|
    ensures var f := ParseEntries(data, pos + 4, refs, Signed32(data[pos..pos + 4]), map[]);
      ParseEcmaArray(data, pos, refs)
        == if f.Err? then Err(f.error) else Ok(Parsed(DMap(f.value.value), f.value.next, f.value.refs + [DMap(f.value.value)]))
  {
  }

  /** A turn of readEcmaArray's loop once its key is read: a value read with
      read() and put under the key. */
  lemma EntriesTurn(data: seq<byte>, pos: nat, refs: seq<DValue>, count: int, acc: map<Text, DValue>, key: Got<Text>)
    requires pos <= |data| && count > 0 && ParseString(data, pos) == Ok(key)
    ensures var v := ParseValue(data, key.next, refs);
      ParseEntries(data, pos, refs, count, acc)
        == if v.Err? then Err(v.error) else ParseEntries(data, v.value.next, v.value.refs, count - 1, acc[key.value := v.value.value])
  {
  }

  /** readStrictArray: a signed 32-bit count, that many values, then the list into
      the table. */
  function ParseStrictArray(data: seq<byte>, pos: nat, refs: seq<DValue>): (r: Result<Parsed<DValue>>)
    requires pos <= |data|
    ensures r.Ok? ==> pos + 4 <= r.value.next <= |data| && refs <= r.value.refs
    decreases |data| - pos, 1
  {
    if |data| - pos < 4 then Err(Truncated)
    else
      match ParseItems(data, pos + 4, refs, Signed32(data[pos..pos + 4]), [])
      case Err(e) => Err(e)
      case Ok(p) => Ok(Parsed(DList(p.value), p.next, p.refs + [DList(p.value)]))
  }

  /** The `for` loop of readStrictArray with `count` iterations left. */
  function ParseItems(data: seq<byte>, pos: nat, refs: seq<DValue>, count: int, acc: seq<DValue>)
    : (r: Result<Parsed<seq<DValue>>>)
    requires pos <= |data|
    ensures r.Ok? ==> pos <= r.value.next <= |data| && refs <= r.value.refs
    decreases |data| - pos, 4
  {
    if count <= 0 then Ok(Parsed(acc, pos, refs))
    else
      match ParseValue(data, pos, refs)
      case Err(e) => Err(e)
      case Ok(v) => ParseItems(data, v.next, v.refs, count - 1, acc + [v.value])
  }

  /** A turn of readStrictArray's loop that reads an element, followed by the
      rest of the loop. */
  lemma ItemsTurn(data: seq<byte>, pos: nat, refs: seq<DValue>, count: int, acc: seq<DValue>,
                  v: Parsed<DValue>, rest: Parsed<seq<DValue>>)
    requires pos <= |data| && count > 0 && ParseValue(data, pos, refs) == Ok(v)
    requires v.next <= |data| && ParseItems(data, v.next, v.refs, count - 1, acc + [v.value]) == Ok(rest)
    ensures ParseItems(data, pos, refs, count, acc) == Ok(rest)
  {
  }

  /** The caller's loop `while (reader.hasNext()) reader.read()`: every value up to
      the end of the buffer, or the first exception. */
  function ParseStream(data: seq<byte>, pos: nat, refs: seq<DValue>): (r: Result<seq<DValue>>)
    requires pos <= |data|
    decreases |data| - pos
  {
    if pos == |data| then Ok([])
    else
      match ParseValue(data, pos, refs)
      case Err(e) => Err(e)
      case Ok(v) =>
        match ParseStream(data, v.next, v.refs)
        case Err(e) => Err(e)
        case Ok(rest) => Ok([v.value] + rest)
  }
}

=== FILE: encoding.dfy ===
/** What Amf0Writer appends for each value, as functions. A write that throws an
    IOException leaves behind the bytes it had already written, so every encoding
    is an `Emitted`: the bytes appended and whether the write completed. */
module Encoding {
  import opened AmfTypes
  import opened Wire
  import opened Values

  datatype Emitted = Emitted(bytes: seq<byte>, ok: bool)

  function Done(bytes: seq<byte>): Emitted
  {
    Emitted(bytes, true)
  }

  /** Two writes in sequence: the second runs only if the first completed. */
  function Then(first: Emitted, second: Emitted): (e: Emitted)
    ensures e.ok <==> first.ok && second.ok
    ensures first.ok ==> e.bytes == first.bytes + second.bytes
    ensures !first.ok ==> e == first
  {
    if first.ok then Emitted(first.bytes + second.bytes, second.ok) else first
  }

  /** DataOutputStream.writeUTF: a 16-bit length and the modified UTF-8 bytes, or
      an UTFDataFormatException, before anything is written, when the bytes number
      more than 65535. */
  function Utf(s: seq<CodeUnit>): (e: Emitted)
    ensures e.ok <==> |ModifiedUtf8Bytes(s)| <= 0xFFFF
    ensures !e.ok ==> e.bytes == []
    ensures e.ok ==> |e.bytes| == 2 + |ModifiedUtf8Bytes(s)|
  {
    var b := ModifiedUtf8Bytes(s);
    if |b| > 0xFFFF then Emitted([], false) else Done(Be16(|b|) + b)
  }

  /** Amf0Writer.writeString: the short form (marker 0x02 and a 16-bit length) when
      `utflen` fits in 65535, the long form (0x0c and a 32-bit length) otherwise. */
  function StringHeader(utflen: nat): seq<byte>
  {
    if utflen <= 0xFFFF then [StringMarker] + Be16(utflen)
    else [LongStringMarker] + Be32(utflen)
  }

  /** The whole string value: header, then the payload of `utflen` bytes. */
  function StringBytes(s: seq<CodeUnit>): seq<byte>
  {
    StringHeader(Utf8Length(s)) + Utf8Bytes(s)
  }

  /** writeString's output is `utflen` payload bytes after a header of 3 bytes, or
      of 5 above 65535. */
  lemma {:induction false} StringBytesLength(s: seq<CodeUnit>)
    ensures |StringBytes(s)| == Utf8Length(s) + (if Utf8Length(s) <= 0xFFFF then 3 else 5)
  {
    Utf8LengthCountsBytes(s);
  }

  /** Amf0Writer.write. */
  function Encode(v: Value): Emitted
    decreases v
  {
    match v
    case Number(bits) => Done([NumberMarker] + bits)
    case Boolean(b) => Done([BooleanMarker, if b then 1 else 0])
    case Str(s) => Done(StringBytes(s))
    case Date(time) => Done([DateMarker] + time + Be16(0))
    case Xml(text) => Then(Done([XmlDocumentMarker]), Utf(text))
    case Null => Done([NullMarker])
    case StrictArray(items) => Then(Done([StrictArrayMarker] + Be32(|items|)), EncodeItems(items))
    case EcmaArray(entries) => Then(Done([EcmaArrayMarker] + Be32(|entries|)), EncodeEntries(entries))
    case Object(fields) =>
      Then(Then(Done([ObjectMarker]), EncodeFields(fields)), Done([0, 0, ObjectEndMarker]))
  }

  /** The elements of a strict array, written in order until one fails. */
  function EncodeItems(items: seq<Value>): Emitted
    decreases items
  {
    if items == [] then Done([])
    else Then(EncodeItems(items[..|items| - 1]), Encode(items[|items| - 1]))
  }

  /** The entries of an ECMA array: each key by writeUTF, then its value. */
  function EncodeEntries(entries: seq<Entry>): Emitted
    decreases entries
  {
    if entries == [] then Done([])
    else
      var e := entries[|entries| - 1];
      Then(EncodeEntries(entries[..|entries| - 1]), Then(Utf(e.key), Encode(e.value)))
  }

  /** The fields of an object, in order until a name cannot be written. */
  function EncodeFields(fields: seq<Field>): Emitted
    decreases fields
  {
    if fields == [] then Done([])
    else Then(EncodeFields(fields[..|fields| - 1]), EncodeField(fields[|fields| - 1]))
  }

  /** One field: its name by writeUTF, which may throw, then its value. */
  function EncodeField(f: Field): Emitted
    decreases f
  {
    Then(Utf(f.name), Done(FieldValueBytes(f.read)))
  }

  /** What follows a field's name: a failure to read the field or to write its
      value appends a null marker after whatever the value had written. */
  function FieldValueBytes(read: FieldRead): seq<byte>
    decreases read
  {
    match read
    case Unreadable => [NullMarker]
    case Readable(x) =>
      var e := Encode(x);
      if e.ok then e.bytes else e.bytes + [NullMarker]
  }

  /** Then, once the first write completed. */
  lemma ThenAfterOk(first: Emitted, second: Emitted)
    requires first.ok
    ensures Then(first, second) == Emitted(first.bytes + second.bytes, second.ok)
  {
  }

  /** The three collection cases of Encode, one at a time. */
  lemma StrictArrayForm(v: Value)
    requires v.StrictArray?
    ensures Encode(v) == Then(Done([StrictArrayMarker] + Be32(|v.items|)), EncodeItems(v.items))
  {
  }

  lemma EcmaArrayForm(v: Value)
    requires v.EcmaArray?
    ensures Encode(v) == Then(Done([EcmaArrayMarker] + Be32(|v.entries|)), EncodeEntries(v.entries))
  {
  }

  lemma ObjectForm(v: Value)
    requires v.Object?
    ensures Encode(v) == Then(Then(Done([ObjectMarker]), EncodeFields(v.fields)), Done([0, 0, ObjectEndMarker]))
  {
  }

  /** A strict array's encoding once its header is written: the elements', ending
      early at the first element that fails. */
  lemma ItemsWritten(items: seq<Value>)
    ensures Encode(StrictArray(items))
         == Emitted([StrictArrayMarker] + Be32(|items|) + EncodeItems(items).bytes, EncodeItems(items).ok)
  {
    StrictArrayForm(StrictArray(items));
    ThenAfterOk(Done([StrictArrayMarker] + Be32(|items|)), EncodeItems(items));
  }

  lemma EntriesWritten(entries: seq<Entry>)
    ensures Encode(EcmaArray(entries))
         == Emitted([EcmaArrayMarker] + Be32(|entries|) + EncodeEntries(entries).bytes, EncodeEntries(entries).ok)
  {
    EcmaArrayForm(EcmaArray(entries));
    ThenAfterOk(Done([EcmaArrayMarker] + Be32(|entries|)), EncodeEntries(entries));
  }

  /** An object's encoding: the fields', then the end sequence only if every
      field name was written. */
  lemma FieldsWritten(fields: seq<Field>)
    ensures Encode(Object(fields)).ok == EncodeFields(fields).ok
    ensures EncodeFields(fields).ok ==>
      Encode(Object(fields)).bytes == [ObjectMarker] + EncodeFields(fields).bytes + [0, 0, ObjectEndMarker]
    ensures !EncodeFields(fields).ok ==>
      Encode(Object(fields)).bytes == [ObjectMarker] + EncodeFields(fields).bytes
  {
    ObjectForm(Object(fields));
    var inner := Then(Done([ObjectMarker]), EncodeFields(fields));
    ThenAfterOk(Done([ObjectMarker]), EncodeFields(fields));
    if inner.ok {
      ThenAfterOk(inner, Done([0, 0, ObjectEndMarker]));
    }
  }

  /** Appending one element to a prefix that was written completely. */
  lemma ItemsStep(items: seq<Value>, i: nat)
    requires i < |items| && EncodeItems(items[..i]).ok
    ensures EncodeItems(items[..i + 1])
         == Emitted(EncodeItems(items[..i]).bytes + Encode(items[i]).bytes, Encode(items[i]).ok)
  {
    PrefixStep(items, i);
    ThenAfterOk(EncodeItems(items[..i]), Encode(items[i]));
  }

  lemma EntriesStep(entries: seq<Entry>, i: nat)
    requires i < |entries| && EncodeEntries(entries[..i]).ok
    ensures EncodeEntries(entries[..i + 1])
         == Then(EncodeEntries(entries[..i]), Then(Utf(entries[i].key), Encode(entries[i].value)))
  {
    PrefixStep(entries, i);
  }

  lemma FieldsStep(fields: seq<Field>, i: nat)
    requires i < |fields| && EncodeFields(fields[..i]).ok
    ensures EncodeFields(fields[..i + 1])
         == Emitted(EncodeFields(fields[..i]).bytes + EncodeField(fields[i]).bytes, EncodeField(fields[i]).ok)
  {
    PrefixStep(fields, i);
    ThenAfterOk(EncodeFields(fields[..i]), EncodeField(fields[i]));
  }

  /** Once an element fails, the elements after it are not written. */
  lemma {:induction false} ItemsStopAtFailure(items: seq<Value>, n: nat)
    requires n <= |items| && !EncodeItems(items[..n]).ok
    ensures EncodeItems(items) == EncodeItems(items[..n])
    decreases |items|
  {
    if n < |items| {
      var init := items[..|items| - 1];
      assert init[..n] == items[..n];
      ItemsStopAtFailure(init, n);
    } else {
      assert items[..n] == items;
    }
  }

  lemma {:induction false} EntriesStopAtFailure(entries: seq<Entry>, n: nat)
    requires n <= |entries| && !EncodeEntries(entries[..n]).ok
    ensures EncodeEntries(entries) == EncodeEntries(entries[..n])
    decreases |entries|
  {
    if n < |entries| {
      var init := entries[..|entries| - 1];
      assert init[..n] == entries[..n];
      EntriesStopAtFailure(init, n);
    } else {
      assert entries[..n] == entries;
    }
  }

  lemma {:induction false} FieldsStopAtFailure(fields: seq<Field>, n: nat)
    requires n <= |fields| && !EncodeFields(fields[..n]).ok
    ensures EncodeFields(fields) == EncodeFields(fields[..n])
    decreases |fields|
  {
    if n < |fields| {
      var init := fields[..|fields| - 1];
      assert init[..n] == fields[..n];
      FieldsStopAtFailure(init, n);
    } else {
      assert fields[..n] == fields;
    }
  }

  /** Two writes, then a third, is one write, then the other two. */
  lemma ThenAssoc(a: Emitted, b: Emitted, c: Emitted)
    ensures Then(Then(a, b), c) == Then(a, Then(b, c))
  {
    if a.ok && b.ok {
      AppendAssoc(a.bytes, b.bytes, c.bytes);
    }
  }

  /** A strict array's elements, read from the front: the first element, then the
      others. */
  lemma {:induction false} ItemsCons(x: Value, rest: seq<Value>)
    ensures EncodeItems([x] + rest) == Then(Encode(x), EncodeItems(rest))
    decreases |rest|
  {
    if rest == [] {
      assert [x] + rest == [x];
      assert [x][..0] == [];
    } else {
      var init, y := rest[..|rest| - 1], rest[|rest| - 1];
      DropLastOfAppend([x], rest);
      ItemsCons(x, init);
      ThenAssoc(Encode(x), EncodeItems(init), Encode(y));
    }
  }

  lemma {:induction false} EntriesCons(e: Entry, rest: seq<Entry>)
    ensures EncodeEntries([e] + rest) == Then(Then(Utf(e.key), Encode(e.value)), EncodeEntries(rest))
    decreases |rest|
  {
    var head := Then(Utf(e.key), Encode(e.value));
    if rest == [] {
      assert [e] + rest == [e];
      assert [e][..0] == [];
    } else {
      var init, y := rest[..|rest| - 1], rest[|rest| - 1];
      var all, last := [e] + rest, Then(Utf(y.key), Encode(y.value));
      DropLastOfAppend([e], rest);
      assert EncodeEntries(all) == Then(EncodeEntries([e] + init), last);
      assert EncodeEntries(rest) == Then(EncodeEntries(init), last);
      EntriesCons(e, init);
      ThenAssoc(head, EncodeEntries(init), last);
    }
  }

  lemma {:induction false} FieldsCons(f: Field, rest: seq<Field>)
    ensures EncodeFields([f] + rest) == Then(EncodeField(f), EncodeFields(rest))
    decreases |rest|
  {
    if rest == [] {
      assert [f] + rest == [f];
      assert [f][..0] == [];
    } else {
      var init, y := rest[..|rest| - 1], rest[|rest| - 1];
      DropLastOfAppend([f], rest);
      FieldsCons(f, init);
      ThenAssoc(EncodeField(f), EncodeFields(init), EncodeField(y));
    }
  }

  /** writeCollection completes exactly when every element's write completes. */
  lemma {:induction false} ItemsOk(items: seq<Value>)
    ensures EncodeItems(items).ok <==> forall i | 0 <= i < |items| :: Encode(items[i]).ok
    decreases |items|
  {
    if items != [] {
      var init := items[..|items| - 1];
      ItemsOk(init);
      assert forall i | 0 <= i < |init| :: init[i] == items[i];
    }
  }

  /** writeEcmaArray completes exactly when every key and every value is written. */
  lemma {:induction false} EntriesOk(entries: seq<Entry>)
    ensures EncodeEntries(entries).ok
        <==> forall i | 0 <= i < |entries| :: Utf(entries[i].key).ok && Encode(entries[i].value).ok
    decreases |entries|
  {
    if entries != [] {
      var init := entries[..|entries| - 1];
      EntriesOk(init);
      assert forall i | 0 <= i < |init| :: init[i] == entries[i];
    }
  }

  /** writeObject's loop completes exactly when every field name is written: a
      value that fails is replaced by a null marker and the loop goes on. */
  lemma {:induction false} FieldsOk(fields: seq<Field>)
    ensures EncodeFields(fields).ok <==> forall i | 0 <= i < |fields| :: Utf(fields[i].name).ok
    decreases |fields|
  {
    if fields != [] {
      var init := fields[..|fields| - 1];
      FieldsOk(init);
      assert forall i | 0 <= i < |init| :: init[i] == fields[i];
    }
  }

  /** Every value's bytes start with a marker below 0x80, and never with the
      object-end marker. */
  lemma StartsWithMarker(v: Value)
    ensures Encode(v).bytes != [] && Encode(v).bytes[0] < 0x80 && Encode(v).bytes[0] != ObjectEndMarker
  {
    match v
    case Object(fields) =>
      ObjectForm(v);
    case StrictArray(items) =>
      ItemsWritten(items);
    case EcmaArray(entries) =>
      EntriesWritten(entries);
    case _ =>
  }
}

=== FILE: reader.dfy ===
/** Amf0Reader: a cursor over a byte buffer and a table of the maps and lists read
    so far. Every method is proved to return what the functions of module
    Decoding say and to leave the cursor and the table where they say. */
module Amf0Reader {
  import opened AmfTypes
  import opened Wire
  import opened Values
  import opened Decoding

  class Decoder {
    /** The bytes of the buffer, from its initial position to its limit. */
    const data: seq<byte>
    /** The buffer's position, relative to `data`. */
    var pos: nat
    /** The `references` list. */
    var references: seq<DValue>

    ghost predicate Valid()
      reads this
    {
      pos <= |data|
    }

    constructor (data: seq<byte>)
      ensures Valid() && this.data == data && pos == 0 && references == []
    {
      this.data := data;
      pos := 0;
      references := [];
    }

    /** hasNext: bytes remain between the position and the limit. */
    method HasNext() returns (more: bool)
      requires Valid()
      ensures more <==> pos < |data|
    {
      more := pos < |data|;
    }

    /** read(): one marker byte, then read(int). */
    method Read() returns (r: Result<DValue>)
      requires Valid()
      modifies this
      ensures Valid() && old(references) <= references
      ensures Follows(ParseValue(data, old(pos), old(references)), r, pos, references)
      decreases |data| - pos, 3
    {
      if pos == |data| {
        return Err(Truncated);
      }
      var marker := data[pos];
      pos := pos + 1;
      r := ReadMarked(Signed8(marker));
    }

    /** read(int): dispatch on the marker. */
    method ReadMarked(marker: int) returns (r: Result<DValue>)
      requires Valid()
      modifies this
      ensures Valid() && old(references) <= references
      ensures Follows(ParseMarked(data, marker, old(pos), old(references)), r, pos, references)
      decreases |data| - pos, 2
    {
      if marker == NumberMarker {
        if |data| - pos < 8 {
          return Err(Truncated);
        }
        r := Ok(DNumber(data[pos..pos + 8]));
        pos := pos + 8;
      } else if marker == BooleanMarker {
        if |data| - pos < 1 {
          return Err(Truncated);
        }
        r := Ok(DBoolean(data[pos] != 0));
        pos := pos + 1;
      } else if marker == StringMarker {
        var s := ReadString();
        r := if s.Ok? then Ok(DString(s.value)) else Err(s.error);
      } else if marker == ObjectMarker {
        r := ReadObject();
      } else if marker == NullMarker || marker == UndefinedMarker || marker == UnsupportedMarker {
        r := Ok(DNull);
      } else if marker == ReferenceMarker {
        r := ReadReference();
      } else if marker == EcmaArrayMarker {
        r := ReadEcmaArray();
      } else if marker == StrictArrayMarker {
        r := ReadStrictArray();
      } else if marker == DateMarker {
        r := ReadDate();
      } else if marker == LongStringMarker {
        var s := ReadLongString();
        r := if s.Ok? then Ok(DString(s.value)) else Err(s.error);
      } else if marker == XmlDocumentMarker {
        var s := ReadLongString();
        r := if s.Ok? then Ok(DXml(s.value)) else Err(s.error);
      } else if marker == TypedObjectMarker {
        r := Err(TypedObject);
      } else {
        r := Err(UnsupportedType(marker));
      }
    }

    /** `new byte[size]` and `data.get(chars)`, then the UTF-8 decoding. */
    method ReadChars(size: int) returns (r: Result<Text>)
      requires Valid()
      modifies this
      ensures Valid() && references == old(references)
      ensures FollowsGot(ParseChars(data, old(pos), size), r, pos)
    {
      if size < 0 {
        return Err(NegativeArraySize(size));
      }
      if size > |data| - pos {
        return Err(Truncated);
      }
      var chars := data[pos..pos + size];
      pos := pos + size;
      r := Ok(DecodeText(chars));
    }

    /** readString: getShort, then the bytes. */
    method ReadString() returns (r: Result<Text>)
      requires Valid()
      modifies this
      ensures Valid() && references == old(references)
      ensures FollowsGot(ParseString(data, old(pos)), r, pos)
    {
      if |data| - pos < 2 {
        return Err(Truncated);
      }
      var size := Signed16(data[pos..pos + 2]);
      pos := pos + 2;
      r := ReadChars(size);
    }

    /** readLongString: getInt, then the bytes. */
    method ReadLongString() returns (r: Result<Text>)
      requires Valid()
      modifies this
      ensures Valid() && references == old(references)
      ensures FollowsGot(ParseLongString(data, old(pos)), r, pos)
    {
      if |data| - pos < 4 {
        return Err(Truncated);
      }
      var size := Signed32(data[pos..pos + 4]);
      pos := pos + 4;
      r := ReadChars(size);
    }

    /** readObject: keys and values until the marker 0x09, then the map into the
        table. */
    method ReadObject() returns (r: Result<DValue>)
      requires Valid()
      modifies this
      ensures Valid() && old(references) <= references
      ensures Follows(ParseObject(data, old(pos), old(references)), r, pos, references)
      decreases |data| - pos, 1
    {
      ghost var pos0, refs0 := pos, references;
      ghost var outcome := ParseFields(data, pos0, refs0, map[]);
      ObjectOfFields(data, pos0, refs0);
      var fields: map<Text, DValue> := map[];
      while true
        invariant Valid() && pos0 <= pos && refs0 <= references
        invariant ParseFields(data, pos, references, fields) == outcome
        decreases |data| - pos
      {
        ghost var p, refs, acc := pos, references, fields;
        var key := ReadString();
        if key.Err? {
          return Err(key.error);
        }
        ghost var k := Got(key.value, pos);
        FieldsTurn(data, p, refs, acc, k);
        if pos == |data| {
          return Err(Truncated);
        }
        var dataType := data[pos];
        pos := pos + 1;
        if dataType == ObjectEndMarker {
          break;
        }
        ghost var v := ParseMarked(data, Signed8(dataType), pos, refs);
        FieldTurn(data, p, refs, acc, k, pos, v);
        var value := ReadMarked(Signed8(dataType));
        if value.Err? {
          return Err(value.error);
        }
        fields := fields[key.value := value.value];
      }
      references := references + [DMap(fields)];
      r := Ok(DMap(fields));
    }

    /** readEcmaArray: getInt, then that many keys and values; no end marker. */
    method ReadEcmaArray() returns (r: Result<DValue>)
      requires Valid()
      modifies this
      ensures Valid() && old(references) <= references
      ensures Follows(ParseEcmaArray(data, old(pos), old(references)), r, pos, references)
      decreases |data| - pos, 1
    {
      if |data| - pos < 4 {
        return Err(Truncated);
      }
      EcmaArrayOfEntries(data, pos, references);
      var size := Signed32(data[pos..pos + 4]);
      pos := pos + 4;
      ghost var pos0, refs0 := pos, references;
      ghost var outcome := ParseEntries(data, pos0, refs0, size, map[]);
      var entries: map<Text, DValue> := map[];
      var i := 0;
      while i < size
        invariant Valid() && pos0 <= pos && refs0 <= references
        invariant ParseEntries(data, pos, references, size - i, entries) == outcome
        decreases size - i
      {
        ghost var p, refs, acc := pos, references, entries;
        var key := ReadString();
        if key.Err? {
          return Err(key.error);
        }
        EntriesTurn(data, p, refs, size - i, acc, Got(key.value, pos));
        var value := Read();
        if value.Err? {
          return Err(value.error);
        }
        entries := entries[key.value := value.value];
        i := i + 1;
      }
      references := references + [DMap(entries)];
      r := Ok(DMap(entries));
    }

    /** readStrictArray: getInt, then that many values. */
    method ReadStrictArray() returns (r: Result<DValue>)
      requires Valid()
      modifies this
      ensures Valid() && old(references) <= references
      ensures Follows(ParseStrictArray(data, old(pos), old(references)), r, pos, references)
      decreases |data| - pos, 1
    {
      if |data| - pos < 4 {
        return Err(Truncated);
      }
      var size := Signed32(data[pos..pos + 4]);
      pos := pos + 4;
      ghost var pos0, refs0 := pos, references;
      var items: seq<DValue> := [];
      var i := 0;
      while i < size
        invariant Valid() && pos0 <= pos && refs0 <= references
        invariant ParseItems(data, pos, references, size - i, items) == ParseItems(data, pos0, refs0, size, [])
        decreases size - i
      {
        var value := Read();
        if value.Err? {
          return Err(value.error);
        }
        items := items + [value.value];
        i := i + 1;
      }
      references := references + [DList(items)];
      r := Ok(DList(items));
    }

    /** readReference: getShort, then the inverted check. When the key exceeds the
        table's size, `references.get(key)` is out of bounds. */
    method ReadReference() returns (r: Result<DValue>)
      requires Valid()
      modifies this
      ensures Valid() && references == old(references)
      ensures Follows(ParseReference(data, old(pos), old(references)), r, pos, references)
    {
      if |data| - pos < 2 {
        return Err(Truncated);
      }
      var key := Signed16(data[pos..pos + 2]);
      pos := pos + 2;
      if |references| < key {
        r := Err(ReferenceOutOfBounds(key));
      } else {
        r := Err(InvalidReferenceKey(key));
      }
    }

    /** readDate: getDouble, then getShort for the ignored time zone. */
    method ReadDate() returns (r: Result<DValue>)
      requires Valid()
      modifies this
      ensures Valid() && references == old(references)
      ensures Follows(ParseMarked(data, DateMarker, old(pos), old(references)), r, pos, references)
    {
      if |data| - pos < 8 {
        return Err(Truncated);
      }
      var time := data[pos..pos + 8];
      pos := pos + 8;
      if |data| - pos < 2 {
        return Err(Truncated);
      }
      pos := pos + 2;
      r := Ok(DDate(time));
    }
  }
}

=== FILE: roundtrip.dfy ===
/** What Amf0Reader makes of the bytes Amf0Writer produces: the values that come
    back unchanged, the table of references the reads leave behind, and the
    values that do not come back. */
module RoundTrip {
  import opened AmfTypes
  import opened Wire
  import opened Values
  import opened Encoding
  import opened Decoding

  // ---------------------------------------------------------------------------
  // What a written value should read back as
  // ---------------------------------------------------------------------------

  /** The reader's value for a value given to the writer: a collection becomes an
      ArrayList, a map or an object becomes a HashMap keyed by strings, and a
      field that could not be read becomes null. */
  function Expected(v: Value): DValue
    decreases v
  {
    match v
    case Number(bits) => DNumber(bits)
    case Boolean(b) => DBoolean(b)
    case Str(s) => DString(Units(s))
    case Date(time) => DDate(time)
    case Xml(text) => DXml(Units(text))
    case Null => DNull
    case StrictArray(items) => DList(ExpectedItems(items))
    case EcmaArray(entries) => DMap(PutAll(map[], EntryPairs(entries)))
    case Object(fields) => DMap(PutAll(map[], FieldPairs(fields)))
  }

  function ExpectedItems(items: seq<Value>): (r: seq<DValue>)
    decreases items
  {
    if items == [] then [] else [Expected(items[0])] + ExpectedItems(items[1..])
  }

  /** The puts of readEcmaArray, in the order the writer wrote the entries. */
  function EntryPairs(entries: seq<Entry>): (r: seq<(Text, DValue)>)
    decreases entries
  {
    if entries == [] then []
    else [(Units(entries[0].key), Expected(entries[0].value))] + EntryPairs(entries[1..])
  }

  /** The puts of readObject, in the order of the object's fields. */
  function FieldPairs(fields: seq<Field>): (r: seq<(Text, DValue)>)
    decreases fields
  {
    if fields == [] then []
    else [(Units(fields[0].name), ExpectedField(fields[0].read))] + FieldPairs(fields[1..])
  }

  function ExpectedField(read: FieldRead): DValue
    decreases read
  {
    match read
    case Unreadable => DNull
    case Readable(x) => Expected(x)
  }

  /** The maps and lists a read of `v` appends to the reference table: each one once
      its own contents are read, so inner before outer. */
  function Completed(v: Value): seq<DValue>
    decreases v
  {
    match v
    case StrictArray(items) => CompletedItems(items) + [Expected(v)]
    case EcmaArray(entries) => CompletedEntries(entries) + [Expected(v)]
    case Object(fields) => CompletedFields(fields) + [Expected(v)]
    case _ => []
  }

  function CompletedItems(items: seq<Value>): seq<DValue>
    decreases items
  {
    if items == [] then [] else Completed(items[0]) + CompletedItems(items[1..])
  }

  function CompletedEntries(entries: seq<Entry>): seq<DValue>
    decreases entries
  {
    if entries == [] then [] else Completed(entries[0].value) + CompletedEntries(entries[1..])
  }

  function CompletedFields(fields: seq<Field>): seq<DValue>
    decreases fields
  {
    if fields == [] then []
    else
      (if fields[0].read.Readable? then Completed(fields[0].read.value) else [])
      + CompletedFields(fields[1..])
  }

  // ---------------------------------------------------------------------------
  // Which values survive the trip
  // ---------------------------------------------------------------------------

  /** A string the reader reads back: no surrogates, and a byte length that the
      reader's signed length field holds. The writer uses the short form up to
      65535 bytes, but getShort turns 32768 and above negative. */
  predicate PortableText(s: seq<CodeUnit>)
  {
    NoSurrogates(s) && (Utf8Length(s) < 0x8000 || 0xFFFF < Utf8Length(s) < 0x8000_0000)
  }

  /** A key or field name, written by writeUTF and read by readString. U+0000 is
      excluded because writeUTF writes it as C0 80, which the reader's decoding
      rejects (NulKeyChanges); surrogates for the same reason as in a string. */
  predicate PortableKey(k: seq<CodeUnit>)
  {
    NoNul(k) && NoSurrogates(k) && Utf8Length(k) < 0x8000
  }

  /** A value the reader reads back as Expected. An XML document never is: the
      writer gives it a 16-bit length and the reader expects a 32-bit one. */
  predicate Portable(v: Value)
    decreases v
  {
    match v
    case Str(s) => PortableText(s)
    case Xml(_) => false
    case StrictArray(items) => |items| < 0x8000_0000 && PortableItems(items)
    case EcmaArray(entries) => |entries| < 0x8000_0000 && PortableEntries(entries)
    case Object(fields) => PortableFields(fields)
    case _ => true
  }

  predicate PortableItems(items: seq<Value>)
    decreases items
  {
    items != [] ==> Portable(items[0]) && PortableItems(items[1..])
  }

  predicate PortableEntries(entries: seq<Entry>)
    decreases entries
  {
    entries != [] ==>
      PortableKey(entries[0].key) && Portable(entries[0].value) && PortableEntries(entries[1..])
  }

  predicate PortableFields(fields: seq<Field>)
    decreases fields
  {
    fields != [] ==>
      PortableKey(fields[0].name) && (fields[0].read.Readable? ==> Portable(fields[0].read.value))
      && PortableFields(fields[1..])
  }

  /** A portable key's modified UTF-8 is its plain UTF-8, of `Utf8Length` bytes. */
  lemma KeyBytes(k: seq<CodeUnit>)
    requires PortableKey(k)
    ensures Utf(k) == Done(Be16(Utf8Length(k)) + Utf8Bytes(k))
  {
    ModifiedUtf8WithoutNul(k);
    Utf8LengthCountsBytes(k);
  }

  /** Every write of a portable value completes. */
  lemma {:induction false} PortableWrites(v: Value)
    requires Portable(v)
    ensures Encode(v).ok
    decreases v, 1
  {
    match v
    case StrictArray(items) =>
      ItemsWrite(items);
      ItemsWritten(items);
    case EcmaArray(entries) =>
      EntriesWrite(entries);
      EntriesWritten(entries);
    case Object(fields) =>
      FieldsWrite(fields);
      FieldsWritten(fields);
    case _ =>
  }

  lemma {:induction false} ItemsWrite(items: seq<Value>)
    requires PortableItems(items)
    ensures EncodeItems(items).ok
    decreases items, 0
  {
    if items != [] {
      assert items == [items[0]] + items[1..];
      ItemsCons(items[0], items[1..]);
      PortableWrites(items[0]);
      ItemsWrite(items[1..]);
    }
  }

  lemma {:induction false} EntriesWrite(entries: seq<Entry>)
    requires PortableEntries(entries)
    ensures EncodeEntries(entries).ok
    decreases entries, 0
  {
    if entries != [] {
      assert entries == [entries[0]] + entries[1..];
      EntriesCons(entries[0], entries[1..]);
      KeyBytes(entries[0].key);
      PortableWrites(entries[0].value);
      EntriesWrite(entries[1..]);
    }
  }

  lemma {:induction false} FieldsWrite(fields: seq<Field>)
    requires PortableFields(fields)
    ensures EncodeFields(fields).ok
    decreases fields, 0
  {
    if fields != [] {
      assert fields == [fields[0]] + fields[1..];
      FieldsCons(fields[0], fields[1..]);
      KeyBytes(fields[0].name);
      FieldsWrite(fields[1..]);
    }
  }

  // ---------------------------------------------------------------------------
  // Bytes inside a buffer
  //
  // Positions are passed as variables (`mid`, `end`) tied to the lengths by one
  // equation each, so that the reader's functions are applied to the same terms
  // on both sides of every step.
  // ---------------------------------------------------------------------------

  /** `b` sits in `data` at `pos`. */
  predicate At(data: seq<byte>, pos: nat, b: seq<byte>)
  {
    pos + |b| <= |data| && data[pos..pos + |b|] == b
  }

  lemma AtSplit(data: seq<byte>, pos: nat, mid: nat, a: seq<byte>, b: seq<byte>)
    requires At(data, pos, a + b) && mid == pos + |a|
    ensures At(data, pos, a) && At(data, mid, b)
  {
    assert data[pos..mid] == (a + b)[..|a|];
    assert data[mid..mid + |b|] == (a + b)[|a|..];
  }

  lemma AtHead(data: seq<byte>, pos: nat, b: seq<byte>)
    requires At(data, pos, b) && b != []
    ensures pos < |data| && data[pos] == b[0]
  {
    assert data[pos..pos + |b|][0] == data[pos];
  }

  // ---------------------------------------------------------------------------
  // Strings
  // ---------------------------------------------------------------------------

  lemma Signed16Small(n: int)
    requires 0 <= n < 0x8000
    ensures Signed16(Be16(n)) == n
  {
    Signed16OfBe16(n);
  }

  /** readString over a length below 32768 and that many bytes. */
  lemma ShortStringAt(data: seq<byte>, p: nat, end: nat, b: seq<byte>)
    requires |b| < 0x8000 && At(data, p, Be16(|b|) + b) && end == p + 2 + |b|
    ensures ParseString(data, p) == Ok(Got(DecodeText(b), end))
  {
    var q := p + 2;
    AtSplit(data, p, q, Be16(|b|), b);
    Signed16Small(|b|);
    assert Signed16(data[p..q]) == |b|;
    assert data[q..end] == b;
  }

  /** readLongString over a length below 2^31 and that many bytes. */
  lemma LongStringAt(data: seq<byte>, p: nat, end: nat, b: seq<byte>)
    requires |b| < 0x8000_0000 && At(data, p, Be32(|b|) + b) && end == p + 4 + |b|
    ensures ParseLongString(data, p) == Ok(Got(DecodeText(b), end))
  {
    var q := p + 4;
    AtSplit(data, p, q, Be32(|b|), b);
    Signed32OfBe32(|b|);
    assert Signed32(data[p..q]) == |b|;
    assert data[q..end] == b;
  }

  /** readString reads back a key written by writeUTF. */
  lemma KeyRoundTrip(k: seq<CodeUnit>, data: seq<byte>, p: nat, end: nat)
    requires PortableKey(k) && At(data, p, Utf(k).bytes) && end == p + |Utf(k).bytes|
    ensures ParseString(data, p) == Ok(Got(Units(k), end))
  {
    KeyBytes(k);
    Utf8LengthCountsBytes(k);
    var b := Utf8Bytes(k);
    ShortStringAt(data, p, end, b);
    Utf8RoundTrip(k);
    assert DecodeText(b) == Units(k);
  }

  /** read() reads back a portable string written by writeString, in either form. */
  lemma StringRoundTrip(s: seq<CodeUnit>, data: seq<byte>, pos: nat, end: nat, refs: seq<DValue>)
    requires PortableText(s) && At(data, pos, StringBytes(s)) && end == pos + |StringBytes(s)|
    ensures ParseValue(data, pos, refs) == Ok(Parsed(DString(Units(s)), end, refs))
  {
    var n, b := Utf8Length(s), Utf8Bytes(s);
    Utf8LengthCountsBytes(s);
    Utf8RoundTrip(s);
    assert DecodeText(b) == Units(s);
    var q := pos + 1;
    if n <= 0xFFFF {
      ShortStringValue(data, pos, q, end, b, refs);
    } else {
      LongStringValue(data, pos, q, end, b, refs);
    }
  }

  lemma ShortStringValue(data: seq<byte>, pos: nat, q: nat, end: nat, b: seq<byte>, refs: seq<DValue>)
    requires |b| < 0x8000 && At(data, pos, StringHeader(|b|) + b) && q == pos + 1 && end == q + 2 + |b|
    ensures ParseValue(data, pos, refs) == Ok(Parsed(DString(DecodeText(b)), end, refs))
  {
    AppendAssoc([StringMarker], Be16(|b|), b);
    AtSplit(data, pos, q, [StringMarker], Be16(|b|) + b);
    AtHead(data, pos, [StringMarker]);
    ShortStringAt(data, q, end, b);
    assert ParseValue(data, pos, refs) == ParseMarked(data, StringMarker, q, refs);
  }

  lemma LongStringValue(data: seq<byte>, pos: nat, q: nat, end: nat, b: seq<byte>, refs: seq<DValue>)
    requires 0xFFFF < |b| < 0x8000_0000 && At(data, pos, StringHeader(|b|) + b) && q == pos + 1 && end == q + 4 + |b|
    ensures ParseValue(data, pos, refs) == Ok(Parsed(DString(DecodeText(b)), end, refs))
  {
    AppendAssoc([LongStringMarker], Be32(|b|), b);
    AtSplit(data, pos, q, [LongStringMarker], Be32(|b|) + b);
    AtHead(data, pos, [LongStringMarker]);
    LongStringAt(data, q, end, b);
    assert ParseValue(data, pos, refs) == ParseMarked(data, LongStringMarker, q, refs);
  }

  // ---------------------------------------------------------------------------
  // The bytes of portable values, piece by piece
  // ---------------------------------------------------------------------------

  lemma ItemsBytes(items: seq<Value>)
    requires items != [] && PortableItems(items)
    ensures Portable(items[0]) && PortableItems(items[1..])
    ensures EncodeItems(items).bytes == Encode(items[0]).bytes + EncodeItems(items[1..]).bytes
  {
    var x, rest := items[0], items[1..];
    assert items == [x] + rest;
    ItemsCons(x, rest);
    PortableWrites(x);
    ThenAfterOk(Encode(x), EncodeItems(rest));
  }

  lemma EntriesBytes(entries: seq<Entry>)
    requires entries != [] && PortableEntries(entries)
    ensures PortableKey(entries[0].key) && Portable(entries[0].value) && PortableEntries(entries[1..])
    ensures EncodeEntries(entries).bytes
         == Utf(entries[0].key).bytes + (Encode(entries[0].value).bytes + EncodeEntries(entries[1..]).bytes)
  {
    var e := entries[0];
    assert entries == [e] + entries[1..];
    EntriesCons(e, entries[1..]);
    KeyBytes(e.key);
    PortableWrites(e.value);
    AppendAssoc(Utf(e.key).bytes, Encode(e.value).bytes, EncodeEntries(entries[1..]).bytes);
  }

  lemma FieldsBytes(fields: seq<Field>)
    requires fields != [] && PortableFields(fields)
    ensures PortableKey(fields[0].name) && PortableFields(fields[1..])
    ensures fields[0].read.Readable? ==> Portable(fields[0].read.value)
    ensures EncodeFields(fields).bytes
         == Utf(fields[0].name).bytes + (FieldValueBytes(fields[0].read) + EncodeFields(fields[1..]).bytes)
  {
    var f := fields[0];
    assert fields == [f] + fields[1..];
    FieldsCons(f, fields[1..]);
    KeyBytes(f.name);
    AppendAssoc(Utf(f.name).bytes, FieldValueBytes(f.read), EncodeFields(fields[1..]).bytes);
  }

  /** A readable portable field's value is written whole, and starts with a marker
      other than the object-end marker. */
  lemma FieldValueWhole(read: FieldRead)
    requires read.Readable? && Portable(read.value)
    ensures FieldValueBytes(read) == Encode(read.value).bytes
    ensures FieldValueBytes(read) != [] && FieldValueBytes(read)[0] != ObjectEndMarker
  {
    PortableWrites(read.value);
    StartsWithMarker(read.value);
  }

  lemma StrictArrayBytes(v: Value)
    requires v.StrictArray? && Portable(v)
    ensures Encode(v).bytes == [StrictArrayMarker] + Be32(|v.items|) + EncodeItems(v.items).bytes
    ensures |v.items| < 0x8000_0000 && PortableItems(v.items)
  {
    ItemsWrite(v.items);
    ItemsWritten(v.items);
  }

  lemma EcmaArrayBytes(v: Value)
    requires v.EcmaArray? && Portable(v)
    ensures Encode(v).bytes == [EcmaArrayMarker] + Be32(|v.entries|) + EncodeEntries(v.entries).bytes
    ensures |v.entries| < 0x8000_0000 && PortableEntries(v.entries)
  {
    EntriesWrite(v.entries);
    EntriesWritten(v.entries);
  }

  lemma ObjectBytes(v: Value)
    requires v.Object? && Portable(v)
    ensures Encode(v).bytes == [ObjectMarker] + (EncodeFields(v.fields).bytes + [0, 0, ObjectEndMarker])
    ensures PortableFields(v.fields)
  {
    FieldsWrite(v.fields);
    FieldsWritten(v.fields);
    AppendAssoc([ObjectMarker], EncodeFields(v.fields).bytes, [0, 0, ObjectEndMarker]);
  }

  // ---------------------------------------------------------------------------
  // What the reader does over bytes of those shapes
  // ---------------------------------------------------------------------------

  lemma StrictArrayAt(data: seq<byte>, pos: nat, q: nat, refs: seq<DValue>, n: nat, items: Parsed<seq<DValue>>)
    requires n < 0x8000_0000 && At(data, pos, [StrictArrayMarker] + Be32(n)) && q == pos + 5
    requires q <= |data| && ParseItems(data, q, refs, n, []) == Ok(items)
    ensures ParseValue(data, pos, refs) == Ok(Parsed(DList(items.value), items.next, items.refs + [DList(items.value)]))
  {
    var m := pos + 1;
    AtSplit(data, pos, m, [StrictArrayMarker], Be32(n));
    AtHead(data, pos, [StrictArrayMarker]);
    Signed32OfBe32(n);
    assert Signed32(data[m..m + 4]) == n;
    assert ParseStrictArray(data, m, refs) == Ok(Parsed(DList(items.value), items.next, items.refs + [DList(items.value)]));
    assert ParseValue(data, pos, refs) == ParseMarked(data, StrictArrayMarker, m, refs);
  }

  lemma EcmaArrayAt(data: seq<byte>, pos: nat, q: nat, refs: seq<DValue>, n: nat, entries: Parsed<map<Text, DValue>>)
    requires n < 0x8000_0000 && At(data, pos, [EcmaArrayMarker] + Be32(n)) && q == pos + 5
    requires q <= |data| && ParseEntries(data, q, refs, n, map[]) == Ok(entries)
    ensures ParseValue(data, pos, refs) == Ok(Parsed(DMap(entries.value), entries.next, entries.refs + [DMap(entries.value)]))
  {
    var m := pos + 1;
    AtSplit(data, pos, m, [EcmaArrayMarker], Be32(n));
    AtHead(data, pos, [EcmaArrayMarker]);
    Signed32OfBe32(n);
    assert Signed32(data[m..m + 4]) == n;
    EcmaArrayOfEntries(data, m, refs);
    assert ParseValue(data, pos, refs) == ParseMarked(data, EcmaArrayMarker, m, refs);
  }

  lemma ObjectAt(data: seq<byte>, pos: nat, q: nat, refs: seq<DValue>, fields: Parsed<map<Text, DValue>>)
    requires At(data, pos, [ObjectMarker]) && q == pos + 1
    requires ParseFields(data, q, refs, map[]) == Ok(fields)
    ensures ParseValue(data, pos, refs) == Ok(Parsed(DMap(fields.value), fields.next, fields.refs + [DMap(fields.value)]))
  {
    AtHead(data, pos, [ObjectMarker]);
    ObjectOfFields(data, q, refs);
    assert ParseValue(data, pos, refs) == ParseMarked(data, ObjectMarker, q, refs);
  }

  /** A turn of readEcmaArray's loop followed by the rest of it. */
  lemma EntriesAt(data: seq<byte>, p: nat, refs: seq<DValue>, count: int, acc: map<Text, DValue>,
                  key: Got<Text>, v: Parsed<DValue>, rest: Parsed<map<Text, DValue>>)
    requires p <= |data| && count > 0 && ParseString(data, p) == Ok(key)
    requires ParseValue(data, key.next, refs) == Ok(v)
    requires ParseEntries(data, v.next, v.refs, count - 1, acc[key.value := v.value]) == Ok(rest)
    ensures ParseEntries(data, p, refs, count, acc) == Ok(rest)
  {
    EntriesTurn(data, p, refs, count, acc, key);
  }

  /** A turn of readObject's loop that reads a value, followed by the rest of it. */
  lemma FieldAt(data: seq<byte>, p: nat, refs: seq<DValue>, acc: map<Text, DValue>,
                key: Got<Text>, v: Parsed<DValue>, rest: Parsed<map<Text, DValue>>)
    requires p <= |data| && ParseString(data, p) == Ok(key)
    requires key.next < |data| && data[key.next] != ObjectEndMarker
    requires ParseValue(data, key.next, refs) == Ok(v)
    requires ParseFields(data, v.next, v.refs, acc[key.value := v.value]) == Ok(rest)
    ensures ParseFields(data, p, refs, acc) == Ok(rest)
  {
    var m := key.next + 1;
    assert ParseValue(data, key.next, refs) == ParseMarked(data, Signed8(data[key.next]), m, refs);
    FieldTurn(data, p, refs, acc, key, m, Ok(v));
  }

  /** The end sequence of an object: an empty key and the marker 0x09. */
  lemma FieldsEndAt(data: seq<byte>, p: nat, end: nat, refs: seq<DValue>, acc: map<Text, DValue>)
    requires At(data, p, [0, 0, ObjectEndMarker]) && end == p + 3
    ensures ParseFields(data, p, refs, acc) == Ok(Parsed(acc, end, refs))
  {
    var q := p + 2;
    AtSplit(data, p, q, [0, 0], [ObjectEndMarker]);
    assert [0, 0] + [ObjectEndMarker] == [0, 0, ObjectEndMarker];
    assert Signed16(data[p..q]) == 0;
    AtHead(data, q, [ObjectEndMarker]);
    assert ParseString(data, p).Ok?;
    FieldsTurn(data, p, refs, acc, ParseString(data, p).value);
  }

  // ---------------------------------------------------------------------------
  // The round trip
  // ---------------------------------------------------------------------------

  /** read() at the start of a portable value's bytes returns Expected(v), stops at
      the end of those bytes and appends Completed(v) to the reference table. */
  lemma DecodeEncoded(v: Value, data: seq<byte>, pos: nat, refs: seq<DValue>)
    requires Portable(v) && At(data, pos, Encode(v).bytes)
    ensures ParseValue(data, pos, refs)
         == Ok(Parsed(Expected(v), pos + |Encode(v).bytes|, refs + Completed(v)))
  {
    ValueDecode(v, data, pos, pos + |Encode(v).bytes|, refs);
  }

  lemma {:induction false} ValueDecode(v: Value, data: seq<byte>, pos: nat, end: nat, refs: seq<DValue>)
    requires Portable(v) && At(data, pos, Encode(v).bytes) && end == pos + |Encode(v).bytes|
    ensures ParseValue(data, pos, refs) == Ok(Parsed(Expected(v), end, refs + Completed(v)))
    decreases v, 2
  {
    if v.StrictArray? {
      DecodeStrictArray(v, data, pos, end, refs);
    } else if v.EcmaArray? {
      DecodeEcmaArray(v, data, pos, end, refs);
    } else if v.Object? {
      DecodeObject(v, data, pos, end, refs);
    } else if v.Str? {
      StringRoundTrip(v.units, data, pos, end, refs);
      assert refs + [] == refs;
    } else {
      DecodeScalar(v, data, pos, end, refs);
    }
  }

  /** Numbers, booleans, dates and null: a marker and a fixed number of bytes. */
  lemma DecodeScalar(v: Value, data: seq<byte>, pos: nat, end: nat, refs: seq<DValue>)
    requires v.Number? || v.Boolean? || v.Date? || v.Null?
    requires At(data, pos, Encode(v).bytes) && end == pos + |Encode(v).bytes|
    ensures ParseValue(data, pos, refs) == Ok(Parsed(Expected(v), end, refs + Completed(v)))
  {
    assert refs + [] == refs;
    var q := pos + 1;
    match v
    case Number(bits) => NumberAt(data, pos, q, end, bits, refs);
    case Boolean(x) => BooleanAt(data, pos, q, end, x, refs);
    case Date(time) => DateAt(data, pos, q, end, time, refs);
    case Null => NullAt(data, pos, end, refs);
  }

  lemma NumberAt(data: seq<byte>, pos: nat, q: nat, end: nat, bits: Word, refs: seq<DValue>)
    requires At(data, pos, [NumberMarker] + bits) && q == pos + 1 && end == q + 8
    ensures ParseValue(data, pos, refs) == Ok(Parsed(DNumber(bits), end, refs))
  {
    AtSplit(data, pos, q, [NumberMarker], bits);
    AtHead(data, pos, [NumberMarker]);
    assert data[q..end] == bits;
    assert ParseValue(data, pos, refs) == ParseMarked(data, NumberMarker, q, refs);
  }

  lemma BooleanAt(data: seq<byte>, pos: nat, q: nat, end: nat, x: bool, refs: seq<DValue>)
    requires At(data, pos, [BooleanMarker, if x then 1 else 0]) && q == pos + 1 && end == q + 1
    ensures ParseValue(data, pos, refs) == Ok(Parsed(DBoolean(x), end, refs))
  {
    AtSplit(data, pos, q, [BooleanMarker], [if x then 1 else 0]);
    AtHead(data, pos, [BooleanMarker]);
    AtHead(data, q, [if x then 1 else 0]);
    assert ParseValue(data, pos, refs) == ParseMarked(data, BooleanMarker, q, refs);
  }

  lemma DateAt(data: seq<byte>, pos: nat, q: nat, end: nat, time: Word, refs: seq<DValue>)
    requires At(data, pos, [DateMarker] + time + Be16(0)) && q == pos + 1 && end == q + 10
    ensures ParseValue(data, pos, refs) == Ok(Parsed(DDate(time), end, refs))
  {
    assert [DateMarker] + time + Be16(0) == [DateMarker] + (time + Be16(0));
    AtSplit(data, pos, q, [DateMarker], time + Be16(0));
    AtHead(data, pos, [DateMarker]);
    var r := q + 8;
    AtSplit(data, q, r, time, Be16(0));
    assert data[q..r] == time;
    assert ParseValue(data, pos, refs) == ParseMarked(data, DateMarker, q, refs);
  }

  lemma NullAt(data: seq<byte>, pos: nat, end: nat, refs: seq<DValue>)
    requires At(data, pos, [NullMarker]) && end == pos + 1
    ensures ParseValue(data, pos, refs) == Ok(Parsed(DNull, end, refs))
  {
    AtHead(data, pos, [NullMarker]);
    assert ParseValue(data, pos, refs) == ParseMarked(data, NullMarker, end, refs);
  }

  lemma {:induction false} DecodeStrictArray(v: Value, data: seq<byte>, pos: nat, end: nat, refs: seq<DValue>)
    requires v.StrictArray? && Portable(v) && At(data, pos, Encode(v).bytes) && end == pos + |Encode(v).bytes|
    ensures ParseValue(data, pos, refs) == Ok(Parsed(Expected(v), end, refs + Completed(v)))
    decreases v, 1
  {
    var items := v.items;
    var header, body := [StrictArrayMarker] + Be32(|items|), EncodeItems(items).bytes;
    StrictArrayBytes(v);
    var q := pos + 5;
    AtSplit(data, pos, q, header, body);
    var want := ExpectedItems(items);
    assert [] + want == want;
    ItemsDecode(items, data, q, end, refs, []);
    StrictArrayAt(data, pos, q, refs, |items|, Parsed(want, end, refs + CompletedItems(items)));
    AppendAssoc(refs, CompletedItems(items), [Expected(v)]);
  }

  lemma {:induction false} DecodeEcmaArray(v: Value, data: seq<byte>, pos: nat, end: nat, refs: seq<DValue>)
    requires v.EcmaArray? && Portable(v) && At(data, pos, Encode(v).bytes) && end == pos + |Encode(v).bytes|
    ensures ParseValue(data, pos, refs) == Ok(Parsed(Expected(v), end, refs + Completed(v)))
    decreases v, 1
  {
    var entries := v.entries;
    var header, body := [EcmaArrayMarker] + Be32(|entries|), EncodeEntries(entries).bytes;
    EcmaArrayBytes(v);
    var q := pos + 5;
    AtSplit(data, pos, q, header, body);
    EntriesDecode(entries, data, q, end, refs, map[]);
    EcmaArrayAt(data, pos, q, refs, |entries|,
      Parsed(PutAll(map[], EntryPairs(entries)), end, refs + CompletedEntries(entries)));
    AppendAssoc(refs, CompletedEntries(entries), [Expected(v)]);
  }

  lemma {:induction false} DecodeObject(v: Value, data: seq<byte>, pos: nat, end: nat, refs: seq<DValue>)
    requires v.Object? && Portable(v) && At(data, pos, Encode(v).bytes) && end == pos + |Encode(v).bytes|
    ensures ParseValue(data, pos, refs) == Ok(Parsed(Expected(v), end, refs + Completed(v)))
    decreases v, 1
  {
    var fields := v.fields;
    var body := EncodeFields(fields).bytes + [0, 0, ObjectEndMarker];
    ObjectBytes(v);
    var q := pos + 1;
    AtSplit(data, pos, q, [ObjectMarker], body);
    FieldsDecode(fields, data, q, end, refs, map[]);
    ObjectAt(data, pos, q, refs, Parsed(PutAll(map[], FieldPairs(fields)), end, refs + CompletedFields(fields)));
    AppendAssoc(refs, CompletedFields(fields), [Expected(v)]);
  }

  /** The first element of a written list: read() returns its expected value and
      stops where the rest of the list begins. */
  lemma {:induction false} ItemHead(items: seq<Value>, data: seq<byte>, p: nat, end: nat, refs: seq<DValue>)
    returns (x: DValue, q: nat, inner: seq<DValue>)
    requires items != [] && PortableItems(items)
    requires At(data, p, EncodeItems(items).bytes) && end == p + |EncodeItems(items).bytes|
    ensures ParseValue(data, p, refs) == Ok(Parsed(x, q, refs + inner))
    ensures PortableItems(items[1..])
    ensures At(data, q, EncodeItems(items[1..]).bytes) && end == q + |EncodeItems(items[1..]).bytes|
    ensures ExpectedItems(items) == [x] + ExpectedItems(items[1..])
    ensures CompletedItems(items) == inner + CompletedItems(items[1..])
    decreases items, 0
  {
    var xb := Encode(items[0]).bytes;
    ItemsBytes(items);
    q := p + |xb|;
    AtSplit(data, p, q, xb, EncodeItems(items[1..]).bytes);
    ValueDecode(items[0], data, p, q, refs);
    x, inner := Expected(items[0]), Completed(items[0]);
  }

  /** readStrictArray's loop over the elements the writer wrote. */
  lemma {:induction false} ItemsDecode(items: seq<Value>, data: seq<byte>, p: nat, end: nat, refs: seq<DValue>, acc: seq<DValue>)
    requires PortableItems(items) && At(data, p, EncodeItems(items).bytes) && end == p + |EncodeItems(items).bytes|
    ensures ParseItems(data, p, refs, |items|, acc) == Ok(Parsed(acc + ExpectedItems(items), end, refs + CompletedItems(items)))
    decreases items, 1
  {
    if items == [] {
      assert acc + [] == acc && refs + [] == refs;
    } else {
      var x, q, inner := ItemHead(items, data, p, end, refs);
      var rest, refs', acc' := items[1..], refs + inner, acc + [x];
      ItemsDecode(rest, data, q, end, refs', acc');
      ItemsTurn(data, p, refs, |items|, acc, Parsed(x, q, refs'),
        Parsed(acc' + ExpectedItems(rest), end, refs' + CompletedItems(rest)));
      AppendAssoc(acc, [x], ExpectedItems(rest));
      AppendAssoc(refs, inner, CompletedItems(rest));
    }
  }

  /** The first entry of a written ECMA array: its key, and read() of its value. */
  lemma {:induction false} EntryHead(entries: seq<Entry>, data: seq<byte>, p: nat, end: nat, refs: seq<DValue>)
    returns (key: Text, x: DValue, q: nat, r: nat, inner: seq<DValue>)
    requires entries != [] && PortableEntries(entries)
    requires At(data, p, EncodeEntries(entries).bytes) && end == p + |EncodeEntries(entries).bytes|
    ensures q <= |data| && ParseString(data, p) == Ok(Got(key, q))
    ensures ParseValue(data, q, refs) == Ok(Parsed(x, r, refs + inner))
    ensures PortableEntries(entries[1..])
    ensures At(data, r, EncodeEntries(entries[1..]).bytes) && end == r + |EncodeEntries(entries[1..]).bytes|
    ensures EntryPairs(entries) == [(key, x)] + EntryPairs(entries[1..])
    ensures CompletedEntries(entries) == inner + CompletedEntries(entries[1..])
    decreases entries, 0
  {
    var e := entries[0];
    var kb, vb, rb := Utf(e.key).bytes, Encode(e.value).bytes, EncodeEntries(entries[1..]).bytes;
    EntriesBytes(entries);
    q := p + |kb|;
    r := q + |vb|;
    AtSplit(data, p, q, kb, vb + rb);
    AtSplit(data, q, r, vb, rb);
    KeyRoundTrip(e.key, data, p, q);
    ValueDecode(e.value, data, q, r, refs);
    key, x, inner := Units(e.key), Expected(e.value), Completed(e.value);
  }

  /** readEcmaArray's loop over the entries the writer wrote: each key and value is
      put in turn, so the map is PutAll of the entries in order. */
  lemma {:induction false} EntriesDecode(entries: seq<Entry>, data: seq<byte>, p: nat, end: nat, refs: seq<DValue>, acc: map<Text, DValue>)
    requires PortableEntries(entries) && At(data, p, EncodeEntries(entries).bytes) && end == p + |EncodeEntries(entries).bytes|
    ensures ParseEntries(data, p, refs, |entries|, acc)
         == Ok(Parsed(PutAll(acc, EntryPairs(entries)), end, refs + CompletedEntries(entries)))
    decreases entries, 1
  {
    if entries == [] {
      assert refs + [] == refs;
    } else {
      var key, x, q, r, inner := EntryHead(entries, data, p, end, refs);
      var rest, refs', acc' := entries[1..], refs + inner, acc[key := x];
      EntriesDecode(rest, data, r, end, refs', acc');
      EntriesAt(data, p, refs, |entries|, acc, Got(key, q), Parsed(x, r, refs'),
        Parsed(PutAll(acc', EntryPairs(rest)), end, refs' + CompletedEntries(rest)));
      AppendAssoc(refs, inner, CompletedEntries(rest));
      PutAllCons(acc, key, x, EntryPairs(rest));
    }
  }

  /** The first field of a written object: its name, and read() of what follows it. */
  lemma {:induction false} FieldHead(fields: seq<Field>, data: seq<byte>, p: nat, end: nat, refs: seq<DValue>)
    returns (key: Text, x: DValue, q: nat, r: nat, inner: seq<DValue>)
    requires fields != [] && PortableFields(fields)
    requires At(data, p, EncodeFields(fields).bytes + [0, 0, ObjectEndMarker])
    requires end == p + |EncodeFields(fields).bytes| + 3
    ensures q < |data| && ParseString(data, p) == Ok(Got(key, q)) && data[q] != ObjectEndMarker
    ensures ParseValue(data, q, refs) == Ok(Parsed(x, r, refs + inner))
    ensures PortableFields(fields[1..])
    ensures At(data, r, EncodeFields(fields[1..]).bytes + [0, 0, ObjectEndMarker])
    ensures end == r + |EncodeFields(fields[1..]).bytes| + 3
    ensures FieldPairs(fields) == [(key, x)] + FieldPairs(fields[1..])
    ensures CompletedFields(fields) == inner + CompletedFields(fields[1..])
    decreases fields, 0
  {
    var f := fields[0];
    var tail := [0, 0, ObjectEndMarker];
    var kb, vb, rb := Utf(f.name).bytes, FieldValueBytes(f.read), EncodeFields(fields[1..]).bytes;
    FieldsBytes(fields);
    AppendAssoc(kb, vb + rb, tail);
    AppendAssoc(vb, rb, tail);
    q := p + |kb|;
    r := q + |vb|;
    AtSplit(data, p, q, kb, vb + (rb + tail));
    AtSplit(data, q, r, vb, rb + tail);
    KeyRoundTrip(f.name, data, p, q);
    inner := FieldValueDecode(f.read, data, q, r, refs);
    key, x := Units(f.name), ExpectedField(f.read);
  }

  /** readObject's loop over the fields the writer wrote, and the end sequence
      after them. */
  lemma {:induction false} FieldsDecode(fields: seq<Field>, data: seq<byte>, p: nat, end: nat, refs: seq<DValue>, acc: map<Text, DValue>)
    requires PortableFields(fields) && At(data, p, EncodeFields(fields).bytes + [0, 0, ObjectEndMarker])
    requires end == p + |EncodeFields(fields).bytes| + 3
    ensures ParseFields(data, p, refs, acc)
         == Ok(Parsed(PutAll(acc, FieldPairs(fields)), end, refs + CompletedFields(fields)))
    decreases fields, 1
  {
    if fields == [] {
      assert EncodeFields(fields).bytes + [0, 0, ObjectEndMarker] == [0, 0, ObjectEndMarker];
      FieldsEndAt(data, p, end, refs, acc);
      assert refs + [] == refs;
    } else {
      var key, x, q, r, inner := FieldHead(fields, data, p, end, refs);
      var rest, refs', acc' := fields[1..], refs + inner, acc[key := x];
      FieldsDecode(rest, data, r, end, refs', acc');
      FieldAt(data, p, refs, acc, Got(key, q), Parsed(x, r, refs'),
        Parsed(PutAll(acc', FieldPairs(rest)), end, refs' + CompletedFields(rest)));
      AppendAssoc(refs, inner, CompletedFields(rest));
      PutAllCons(acc, key, x, FieldPairs(rest));
    }
  }

  /** A field's value: a null marker for an unreadable field, the value's own
      bytes otherwise. Returns the references the read appends. */
  lemma {:induction false} FieldValueDecode(read: FieldRead, data: seq<byte>, k: nat, end: nat, refs: seq<DValue>)
    returns (inner: seq<DValue>)
    requires read.Readable? ==> Portable(read.value)
    requires At(data, k, FieldValueBytes(read)) && end == k + |FieldValueBytes(read)|
    ensures inner == (if read.Readable? then Completed(read.value) else [])
    ensures k < |data| && data[k] != ObjectEndMarker
    ensures ParseValue(data, k, refs) == Ok(Parsed(ExpectedField(read), end, refs + inner))
    decreases read, 1
  {
    if read.Readable? {
      FieldValueWhole(read);
      AtHead(data, k, FieldValueBytes(read));
      ValueDecode(read.value, data, k, end, refs);
      inner := Completed(read.value);
    } else {
      AtHead(data, k, FieldValueBytes(read));
      inner := [];
      assert refs + [] == refs;
      assert ParseValue(data, k, refs) == ParseMarked(data, NullMarker, end, refs);
    }
  }

  /** The caller's `while (hasNext()) read()` over a buffer holding the writes of
      `vs`, one after another, and nothing else, returns the values in order. */
  lemma {:induction false} StreamDecode(vs: seq<Value>, data: seq<byte>, p: nat, refs: seq<DValue>)
    requires PortableItems(vs) && At(data, p, EncodeItems(vs).bytes) && |data| == p + |EncodeItems(vs).bytes|
    ensures ParseStream(data, p, refs) == Ok(ExpectedItems(vs))
    decreases vs
  {
    if vs != [] {
      var x, q, inner := ItemHead(vs, data, p, |data|, refs);
      StreamDecode(vs[1..], data, q, refs + inner);
    }
  }

  /** A fresh reader over everything a fresh writer produced for `vs` returns `vs`
      as the reader represents them. */
  lemma StreamRoundTrip(vs: seq<Value>)
    requires PortableItems(vs)
    ensures ParseStream(EncodeItems(vs).bytes, 0, []) == Ok(ExpectedItems(vs))
  {
    var data := EncodeItems(vs).bytes;
    assert data[0..|data|] == data;
    StreamDecode(vs, data, 0, []);
  }

  // ---------------------------------------------------------------------------
  // What the round trip gives, and values that do not come back
  // ---------------------------------------------------------------------------

  /** A strict array reads back as a list of the same length, element by element. */
  lemma {:induction false} ExpectedItemsAt(items: seq<Value>)
    ensures |ExpectedItems(items)| == |items|
    ensures forall i | 0 <= i < |items| :: ExpectedItems(items)[i] == Expected(items[i])
    decreases items
  {
    if items != [] {
      ExpectedItemsAt(items[1..]);
      assert forall i | 1 <= i < |items| :: items[1..][i - 1] == items[i];
    }
  }

  /** The puts of an ECMA array, pair by pair. */
  lemma {:induction false} EntryPairsAt(entries: seq<Entry>)
    ensures |EntryPairs(entries)| == |entries|
    ensures forall i | 0 <= i < |entries| ::
      EntryPairs(entries)[i] == (Units(entries[i].key), Expected(entries[i].value))
    decreases entries
  {
    if entries != [] {
      EntryPairsAt(entries[1..]);
      assert forall i | 1 <= i < |entries| :: entries[1..][i - 1] == entries[i];
    }
  }

  /** Of several entries with the same key, the map read back holds the value of
      the last one written. */
  lemma EcmaArrayLastWins(v: Value, data: seq<byte>, pos: nat, refs: seq<DValue>, i: nat)
    requires v.EcmaArray? && Portable(v) && At(data, pos, Encode(v).bytes)
    requires i < |v.entries| && forall j | i < j < |v.entries| :: v.entries[j].key != v.entries[i].key
    ensures ParseValue(data, pos, refs).Ok?
    ensures var read := ParseValue(data, pos, refs).value.value;
      read.DMap? && Units(v.entries[i].key) in read.entries
      && read.entries[Units(v.entries[i].key)] == Expected(v.entries[i].value)
  {
    DecodeEncoded(v, data, pos, refs);
    EntryPairsAt(v.entries);
    PutAllLast(map[], EntryPairs(v.entries), i);
  }

  /** The maps and lists a read appends end with the value itself, once its
      contents are read. */
  lemma CompositeIsLastReference(v: Value, data: seq<byte>, pos: nat, refs: seq<DValue>)
    requires (v.StrictArray? || v.EcmaArray? || v.Object?) && Portable(v) && At(data, pos, Encode(v).bytes)
    ensures ParseValue(data, pos, refs).Ok?
    ensures var after := ParseValue(data, pos, refs).value.refs;
      |after| > |refs| && after[|after| - 1] == ParseValue(data, pos, refs).value.value
  {
    DecodeEncoded(v, data, pos, refs);
  }

  /** readString over a length of 32768 to 65535 written as 16 bits. */
  lemma NegativeShortLength(data: seq<byte>, p: nat, n: int, b: seq<byte>)
    requires 0x8000 <= n <= 0xFFFF && At(data, p, Be16(n) + b)
    ensures ParseString(data, p) == Err(NegativeArraySize(n - 0x1_0000))
  {
    var q := p + 2;
    AtSplit(data, p, q, Be16(n), b);
    Signed16OfBe16(n);
    assert n % 0x1_0000 == n;
    assert Signed16(data[p..q]) == n - 0x1_0000;
  }

  /** A string of 32768 to 65535 UTF-8 bytes: the writer picks the short form, and
      readString's getShort makes the length negative. */
  lemma MidLengthStringFails(s: seq<CodeUnit>, data: seq<byte>, pos: nat, refs: seq<DValue>)
    requires 0x8000 <= Utf8Length(s) <= 0xFFFF && At(data, pos, StringBytes(s))
    ensures ParseValue(data, pos, refs) == Err(NegativeArraySize(Utf8Length(s) - 0x1_0000))
  {
    var n, b := Utf8Length(s), Utf8Bytes(s);
    var q := pos + 1;
    AppendAssoc([StringMarker], Be16(n), b);
    AtSplit(data, pos, q, [StringMarker], Be16(n) + b);
    AtHead(data, pos, [StringMarker]);
    NegativeShortLength(data, q, n, b);
    assert ParseValue(data, pos, refs) == ParseMarked(data, StringMarker, q, refs);
  }

  /** A string holding a surrogate is written CESU-style; the reader's UTF-8
      decoding does not give back its code units. */
  lemma SurrogateStringChanges(s: seq<CodeUnit>, data: seq<byte>, pos: nat, refs: seq<DValue>)
    requires !NoSurrogates(s) && At(data, pos, StringBytes(s))
    requires Utf8Length(s) < 0x8000 || 0xFFFF < Utf8Length(s) < 0x8000_0000
    ensures ParseValue(data, pos, refs)
         == Ok(Parsed(DString(Unmodelled(Utf8Bytes(s))), pos + |StringBytes(s)|, refs))
  {
    var b := Utf8Bytes(s);
    Utf8LengthCountsBytes(s);
    SurrogateBreaksDecoding(s);
    assert DecodeText(b) == Unmodelled(b);
    if |b| < 0x8000 {
      ShortStringValue(data, pos, pos + 1, pos + |StringBytes(s)|, b, refs);
    } else {
      LongStringValue(data, pos, pos + 1, pos + |StringBytes(s)|, b, refs);
    }
  }

  /** A key or field name holding U+0000 is written by writeUTF with C0 80 in its
      place, which the reader's UTF-8 decoding rejects: readString gives back the
      raw bytes, not the name written. */
  lemma NulKeyChanges(k: seq<CodeUnit>, data: seq<byte>, p: nat)
    requires !NoNul(k) && |ModifiedUtf8Bytes(k)| < 0x8000 && At(data, p, Utf(k).bytes)
    ensures ParseString(data, p)
         == Ok(Got(Unmodelled(ModifiedUtf8Bytes(k)), p + |Utf(k).bytes|))
  {
    var b := ModifiedUtf8Bytes(k);
    NulBreaksDecoding(k);
    assert DecodeText(b) == Unmodelled(b);
    ShortStringAt(data, p, p + |Utf(k).bytes|, b);
  }

  /** An XML document is written with writeUTF's 16-bit length and read with
      readLongString's 32-bit one. The text "ab" alone in a buffer: the reader
      takes 00 02 61 62 as a length of 156002 and runs past the end. */
  lemma XmlDoesNotReadBack()
    ensures Encode(Xml([0x61, 0x62])) == Done([XmlDocumentMarker, 0, 2, 0x61, 0x62])
    ensures ParseStream(Encode(Xml([0x61, 0x62])).bytes, 0, []) == Err(Truncated)
  {
    var text: seq<CodeUnit> := [0x61, 0x62];
    assert text[..1] == [0x61];
    assert ModifiedUtf8Bytes(text) == [0x61, 0x62];
    var data: seq<byte> := [XmlDocumentMarker, 0, 2, 0x61, 0x62];
    assert Signed32(data[1..5]) == 0x2_6162;
    assert ParseValue(data, 0, []) == ParseMarked(data, XmlDocumentMarker, 1, []);
  }

  /** No XML document that writeUTF accepts reads back, wherever it sits in the
      buffer and whatever follows it. The reader takes the 16-bit length and the
      first two payload bytes as a 32-bit length, which is at least 65536 times the
      payload's size, or negative; a payload under two bytes still costs four bytes of
      length. So a read that succeeds always ends past the bytes written, and when
      the write is the last thing in the buffer the read and the stream both fail. */
  lemma XmlNeverReadsBack(t: seq<CodeUnit>, data: seq<byte>, pos: nat, refs: seq<DValue>)
    requires Encode(Xml(t)).ok && At(data, pos, Encode(Xml(t)).bytes)
    ensures ParseValue(data, pos, refs).Ok? ==>
              ParseValue(data, pos, refs).value.next > pos + |Encode(Xml(t)).bytes|
    ensures |data| == pos + |Encode(Xml(t)).bytes| ==> ParseValue(data, pos, refs).Err?
    ensures |data| == pos + |Encode(Xml(t)).bytes| ==> ParseStream(data, pos, refs).Err?
  {
    var b := ModifiedUtf8Bytes(t);
    var m := pos + 1;
    assert Encode(Xml(t)).bytes == [XmlDocumentMarker] + (Be16(|b|) + b);
    AtSplit(data, pos, m, [XmlDocumentMarker], Be16(|b|) + b);
    ShortLengthReadLong(data, m, b);
    assert ParseValue(data, pos, refs) == ParseMarked(data, XmlDocumentMarker, m, refs);
  }

  /** readLongString on a 16-bit length and its payload never stops at the payload's
      end: when it succeeds it has read further, so with nothing after the payload it
      fails. */
  lemma ShortLengthReadLong(data: seq<byte>, p: nat, b: seq<byte>)
    requires |b| <= 0xFFFF && At(data, p, Be16(|b|) + b)
    ensures ParseLongString(data, p).Ok? ==> ParseLongString(data, p).value.next > p + 2 + |b|
    ensures |data| == p + 2 + |b| ==> ParseLongString(data, p).Err?
  {
    var n := |b|;
    if n >= 2 {
      var m, q := p + 2, p + 4;
      AtSplit(data, p, m, Be16(n), b);
      assert data[m] == b[0] && data[m + 1] == b[1];
      var u := data[p..q];
      assert u == [n / 0x100 % 0x100, n % 0x100, b[0], b[1]];
      assert u[0] as int * 0x100 + u[1] as int == n;
      var size := Signed32(u);
      assert size < 0 || size >= n * 0x1_0000;
      assert ParseLongString(data, p) == ParseChars(data, q, size);
    }
  }

  /** A strict array whose count is zero or negative reads as an empty list: the
      loop runs no turn and nothing after the count is read. */
  lemma NonPositiveCount(data: seq<byte>, pos: nat, refs: seq<DValue>)
    requires pos + 5 <= |data| && data[pos] == StrictArrayMarker && Signed32(data[pos + 1..pos + 5]) <= 0
    ensures ParseValue(data, pos, refs) == Ok(Parsed(DList([]), pos + 5, refs + [DList([])]))
  {
    var m, q := pos + 1, pos + 5;
    assert ParseItems(data, q, refs, Signed32(data[m..q]), []) == Ok(Parsed([], q, refs));
    assert ParseStrictArray(data, m, refs) == Ok(Parsed(DList([]), q, refs + [DList([])]));
    assert ParseValue(data, pos, refs) == ParseMarked(data, StrictArrayMarker, m, refs);
  }

  /** An ECMA array whose count is zero or negative reads as an empty map: the
      loop runs no turn, and no end marker is looked for. */
  lemma NonPositiveEntries(data: seq<byte>, pos: nat, refs: seq<DValue>)
    requires pos + 5 <= |data| && data[pos] == EcmaArrayMarker && Signed32(data[pos + 1..pos + 5]) <= 0
    ensures ParseValue(data, pos, refs) == Ok(Parsed(DMap(map[]), pos + 5, refs + [DMap(map[])]))
  {
    var m, q := pos + 1, pos + 5;
    assert ParseEntries(data, q, refs, Signed32(data[m..q]), map[]) == Ok(Parsed(map[], q, refs));
    assert ParseEcmaArray(data, m, refs) == Ok(Parsed(DMap(map[]), q, refs + [DMap(map[])]));
    assert ParseValue(data, pos, refs) == ParseMarked(data, EcmaArrayMarker, m, refs);
  }
}

=== FILE: values.dfy ===
/** The values on both sides of the codec: what Amf0Writer.write is handed, and
    what Amf0Reader.read hands back. */
module Values {
  import opened AmfTypes
  import opened Wire

  /** A value given to the writer, after its host-type dispatch: which Java class
      an argument has decides the variant. */
  datatype Value =
    | Number(bits: Word)              // any java.lang.Number, as the bits of doubleValue()
    | Boolean(b: bool)
    | Str(units: seq<CodeUnit>)       // a java.lang.String
    | Date(time: Word)                // a Date or Calendar, as the bits of (double) getTime()
    | Xml(text: seq<CodeUnit>)        // a DOM document, as the text the transformer produced
    | Null
    | StrictArray(items: seq<Value>)  // an Object[] or a Collection, in iteration order
    | EcmaArray(entries: seq<Entry>)  // a Map, in key-set iteration order
    | Object(fields: seq<Field>)      // any other object, through its public fields

  /** One map entry; the key is written as `k.toString()`. */
  datatype Entry = Entry(key: seq<CodeUnit>, value: Value)

  /** One public field of an object, with what reading it produced. */
  datatype Field = Field(name: seq<CodeUnit>, read: FieldRead)

  /** `Unreadable`: field.get threw IllegalArgumentException or IllegalAccessException. */
  datatype FieldRead = Readable(value: Value) | Unreadable

  /** Decoded text: the code units of well-formed UTF-8 in its 1- to 3-byte forms,
      or the raw bytes of anything else, whose decoding this model leaves open. */
  datatype Text = Units(units: seq<CodeUnit>) | Unmodelled(raw: seq<byte>)

  /** `new String(bytes, StandardCharsets.UTF_8)`, on the part the model covers. */
  function DecodeText(bytes: seq<byte>): (t: Text)
    ensures t.Units? <==> DecodeUtf8(bytes).Some?
  {
    match DecodeUtf8(bytes)
    case Some(units) => Units(units)
    case None => Unmodelled(bytes)
  }

  /** A value returned by the reader: Double, Boolean, String, null, Date, HashMap,
      ArrayList or an XML document (kept as its text). */
  datatype DValue =
    | DNumber(bits: Word)
    | DBoolean(b: bool)
    | DString(text: Text)
    | DNull
    | DDate(time: Word)
    | DMap(entries: map<Text, DValue>)
    | DList(items: seq<DValue>)
    | DXml(text: Text)

  /** `map.put` applied to each pair in turn: a later key replaces an earlier one. */
  function PutAll(m: map<Text, DValue>, pairs: seq<(Text, DValue)>): map<Text, DValue>
    decreases |pairs|
  {
    if pairs == [] then m else PutAll(m[pairs[0].0 := pairs[0].1], pairs[1..])
  }

  /** The first put, then the rest. */
  lemma PutAllCons(m: map<Text, DValue>, k: Text, x: DValue, pairs: seq<(Text, DValue)>)
    ensures PutAll(m, [(k, x)] + pairs) == PutAll(m[k := x], pairs)
  {
    assert ([(k, x)] + pairs)[1..] == pairs;
  }

  /** The keys after the puts are the old keys and the keys put. */
  lemma {:induction false} PutAllKeys(m: map<Text, DValue>, pairs: seq<(Text, DValue)>)
    ensures PutAll(m, pairs).Keys == m.Keys + set i | 0 <= i < |pairs| :: pairs[i].0
    decreases |pairs|
  {
    if pairs != [] {
      PutAllKeys(m[pairs[0].0 := pairs[0].1], pairs[1..]);
      var later := set i | 0 <= i < |pairs[1..]| :: pairs[1..][i].0;
      var all := set i | 0 <= i < |pairs| :: pairs[i].0;
      assert all == {pairs[0].0} + later by {
        forall k | k in all ensures k in {pairs[0].0} + later {
          var i :| 0 <= i < |pairs| && pairs[i].0 == k;
          if i > 0 {
            assert pairs[1..][i - 1].0 == k;
          }
        }
      }
    }
  }

  /** Each key ends up holding the value of its last pair. */
  lemma {:induction false} PutAllLast(m: map<Text, DValue>, pairs: seq<(Text, DValue)>, i: nat)
    requires i < |pairs|
    requires forall j | i < j < |pairs| :: pairs[j].0 != pairs[i].0
    ensures pairs[i].0 in PutAll(m, pairs) && PutAll(m, pairs)[pairs[i].0] == pairs[i].1
    decreases |pairs|
  {
    var m' := m[pairs[0].0 := pairs[0].1];
    if i == 0 {
      PutAllUntouched(m', pairs[1..], pairs[0].0);
    } else {
      forall j | i - 1 < j < |pairs[1..]| ensures pairs[1..][j].0 != pairs[1..][i - 1].0 {
        assert pairs[1..][j] == pairs[j + 1];
      }
      PutAllLast(m', pairs[1..], i - 1);
    }
  }

  /** A key that no pair mentions keeps its value. */
  lemma {:induction false} PutAllUntouched(m: map<Text, DValue>, pairs: seq<(Text, DValue)>, k: Text)
    requires k in m
    requires forall j | 0 <= j < |pairs| :: pairs[j].0 != k
    ensures k in PutAll(m, pairs) && PutAll(m, pairs)[k] == m[k]
    decreases |pairs|
  {
    if pairs != [] {
      forall j | 0 <= j < |pairs[1..]| ensures pairs[1..][j].0 != k {
        assert pairs[1..][j] == pairs[j + 1];
      }
      PutAllUntouched(m[pairs[0].0 := pairs[0].1], pairs[1..], k);
    }
  }
}

=== FILE: wire.dfy ===
/** Byte-level building blocks of the AMF0 wire format: big-endian integers as
    java.io.DataOutputStream writes them and java.nio.ByteBuffer reads them, the
    writer's per-code-unit UTF-8 rule, DataOutputStream.writeUTF's modified UTF-8,
    and the strict UTF-8 decoding of the 1-, 2- and 3-byte forms. */
module Wire {
  import opened AmfTypes

  /** A Java `char`: one UTF-16 code unit. */
  type CodeUnit = x: int | 0 <= x < 0x1_0000

  /** An opaque 8-byte word: the big-endian IEEE-754 bits of a double. */
  type Word = w: seq<byte> | |w| == 8 witness [0, 0, 0, 0, 0, 0, 0, 0]

  datatype Option<T> = None | Some(value: T)

  // ---------------------------------------------------------------------------
  // Big-endian integers

  /** The low 16 bits of `n`, high byte first (writeShort, and the two length
      bytes that writeString stores with `(utflen >>> 8) & 0xFF`, `utflen & 0xFF`). */
  function Be16(n: int): (b: seq<byte>)
    ensures |b| == 2
  {
    [n / 0x100 % 0x100, n % 0x100]
  }

  /** The low 32 bits of `n`, high byte first (writeInt). */
  function Be32(n: int): (b: seq<byte>)
    ensures |b| == 4
  {
    [n / 0x100_0000 % 0x100, n / 0x1_0000 % 0x100, n / 0x100 % 0x100, n % 0x100]
  }

  /** A Java `byte`, which is signed, as an `int`. */
  function Signed8(b: byte): (r: int)
    ensures -0x80 <= r < 0x80 && (r < 0 <==> b >= 0x80) && r % 0x100 == b
  {
    if b < 0x80 then b else b - 0x100
  }

  /** ByteBuffer.getShort: two bytes, big-endian, two's complement. */
  function Signed16(b: seq<byte>): (r: int)
    requires |b| == 2
    ensures -0x8000 <= r < 0x8000 && (r < 0 <==> b[0] >= 0x80)
  {
    var u := b[0] as int * 0x100 + b[1];
    if u < 0x8000 then u else u - 0x1_0000
  }

  /** ByteBuffer.getInt: four bytes, big-endian, two's complement. */
  function Signed32(b: seq<byte>): (r: int)
    requires |b| == 4
    ensures -0x8000_0000 <= r < 0x8000_0000 && (r < 0 <==> b[0] >= 0x80)
  {
    var u := ((b[0] as int * 0x100 + b[1]) * 0x100 + b[2]) * 0x100 + b[3];
    if u < 0x8000_0000 then u else u - 0x1_0000_0000
  }

  /** Reading back what writeShort wrote gives `n` reduced to a signed 16-bit value. */
  lemma Signed16OfBe16(n: int)
    ensures Signed16(Be16(n)) == if n % 0x1_0000 < 0x8000 then n % 0x1_0000 else n % 0x1_0000 - 0x1_0000
  {
    var q, r := n / 0x1_0000, n % 0x1_0000;
    assert n == q * 0x1_0000 + r;
    assert n / 0x100 == q * 0x100 + r / 0x100;
    assert n / 0x100 % 0x100 == r / 0x100;
    assert n % 0x100 == r % 0x100;
  }

  /** Floor division by 256, twice, is division by 65536. */
  lemma DivDiv256(x: int)
    ensures x / 0x100 / 0x100 == x / 0x1_0000
  {
    var q := x / 0x1_0000;
    var r := x % 0x1_0000;
    assert x == q * 0x1_0000 + r && 0 <= r < 0x1_0000;
    assert x / 0x100 == q * 0x100 + r / 0x100;
  }

  /** Reading back what writeInt wrote gives `n` when it fits in a signed 32-bit int. */
  lemma Signed32OfBe32(n: int)
    requires -0x8000_0000 <= n < 0x8000_0000
    ensures Signed32(Be32(n)) == n
  {
    var n1 := n / 0x100;
    var n2 := n1 / 0x100;
    var n3 := n2 / 0x100;
    DivDiv256(n);
    DivDiv256(n1);
    assert n / 0x100_0000 == n3;
    assert n == n1 * 0x100 + n % 0x100;
    assert n1 == n2 * 0x100 + n1 % 0x100;
    assert n2 == n3 * 0x100 + n2 % 0x100;
    assert -0x80 <= n3 < 0x80;
    var b := Be32(n);
    assert b == [n3 % 0x100, n2 % 0x100, n1 % 0x100, n % 0x100];
  }

  // ---------------------------------------------------------------------------
  // The writer's UTF-8 rule (Amf0Writer.writeString): one code unit at a time

  predicate IsSurrogate(c: CodeUnit)
  {
    0xD800 <= c <= 0xDFFF
  }

  predicate NoSurrogates(s: seq<CodeUnit>)
  {
    forall i | 0 <= i < |s| :: !IsSurrogate(s[i])
  }

  /** Bytes a code unit costs: 1 up to 0x7F, 3 above 0x7FF, 2 in between. */
  function UnitLength(c: CodeUnit): nat
  {
    if c <= 0x7F then 1 else if c > 0x7FF then 3 else 2
  }

  /** The encoded byte length `utflen` of a text: the sum of its units' lengths. */
  function Utf8Length(s: seq<CodeUnit>): nat
  {
    if s == [] then 0 else Utf8Length(s[..|s| - 1]) + UnitLength(s[|s| - 1])
  }

  /** One code unit with the bit patterns of section 3 of RFC 3629; a surrogate
      half is encoded on its own in three bytes. (`0xE0 | x` with `x < 0x10` is
      `0xE0 + x`, and likewise for the other masks.) */
  function UnitBytes(c: CodeUnit): (b: seq<byte>)
    ensures |b| == UnitLength(c)
  {
    if c <= 0x7F then [c]
    else if c > 0x7FF then [0xE0 + c / 0x1000 % 0x10, 0x80 + c / 0x40 % 0x40, 0x80 + c % 0x40]
    else [0xC0 + c / 0x40 % 0x20, 0x80 + c % 0x40]
  }

  /** The payload writeString produces: each code unit's bytes in order. */
  function Utf8Bytes(s: seq<CodeUnit>): seq<byte>
  {
    if s == [] then [] else Utf8Bytes(s[..|s| - 1]) + UnitBytes(s[|s| - 1])
  }

  /** `utflen` counts exactly the payload bytes. */
  lemma {:induction false} Utf8LengthCountsBytes(s: seq<CodeUnit>)
    ensures |Utf8Bytes(s)| == Utf8Length(s)
  {
    if s != [] {
      Utf8LengthCountsBytes(s[..|s| - 1]);
    }
  }

  /** Extending a prefix by one element. */
  lemma PrefixStep<T>(s: seq<T>, i: nat)
    requires i < |s|
    ensures s[..i + 1][..i] == s[..i] && s[..i + 1][i] == s[i] && |s[..i + 1]| == i + 1
  {
  }

  lemma WholePrefix<T>(s: seq<T>)
    ensures s[..|s|] == s
  {
  }

  lemma AppendAssoc<T>(a: seq<T>, b: seq<T>, c: seq<T>)
    ensures a + b + c == a + (b + c)
  {
  }

  lemma DropLastOfAppend<T>(a: seq<T>, b: seq<T>)
    requires b != []
    ensures (a + b)[..|a + b| - 1] == a + b[..|b| - 1]
    ensures (a + b)[|a + b| - 1] == b[|b| - 1]
  {
  }

  /** The payload of a concatenation is the concatenation of the payloads. */
  lemma {:induction false} Utf8BytesAppend(a: seq<CodeUnit>, b: seq<CodeUnit>)
    ensures Utf8Bytes(a + b) == Utf8Bytes(a) + Utf8Bytes(b)
    decreases |b|
  {
    if b == [] {
      assert a + b == a;
    } else {
      var b' := b[..|b| - 1];
      DropLastOfAppend(a, b);
      Utf8BytesAppend(a, b');
    }
  }

  /** `utflen` is additive, so a prefix never costs more than the whole. */
  lemma {:induction false} Utf8LengthAppend(a: seq<CodeUnit>, b: seq<CodeUnit>)
    ensures Utf8Length(a + b) == Utf8Length(a) + Utf8Length(b)
    decreases |b|
  {
    if b == [] {
      assert a + b == a;
    } else {
      var b' := b[..|b| - 1];
      DropLastOfAppend(a, b);
      Utf8LengthAppend(a, b');
    }
  }

  // ---------------------------------------------------------------------------
  // DataOutputStream.writeUTF: modified UTF-8, where U+0000 takes two bytes

  function ModifiedUnitBytes(c: CodeUnit): (b: seq<byte>)
  {
    if c == 0 then [0xC0, 0x80] else UnitBytes(c)
  }

  function ModifiedUtf8Bytes(s: seq<CodeUnit>): seq<byte>
  {
    if s == [] then [] else ModifiedUtf8Bytes(s[..|s| - 1]) + ModifiedUnitBytes(s[|s| - 1])
  }

  predicate NoNul(s: seq<CodeUnit>)
  {
    forall i | 0 <= i < |s| :: s[i] != 0
  }

  /** Without U+0000, modified UTF-8 and the writer's rule agree. */
  lemma {:induction false} ModifiedUtf8WithoutNul(s: seq<CodeUnit>)
    requires NoNul(s)
    ensures ModifiedUtf8Bytes(s) == Utf8Bytes(s)
  {
    if s != [] {
      ModifiedUtf8WithoutNul(s[..|s| - 1]);
    }
  }

  /** Modified UTF-8 is additive over concatenation, like the writer's rule. */
  lemma {:induction false} ModifiedUtf8BytesAppend(a: seq<CodeUnit>, b: seq<CodeUnit>)
    ensures ModifiedUtf8Bytes(a + b) == ModifiedUtf8Bytes(a) + ModifiedUtf8Bytes(b)
    decreases |b|
  {
    if b == [] {
      assert a + b == a;
    } else {
      var b', c := b[..|b| - 1], b[|b| - 1];
      DropLastOfAppend(a, b);
      ModifiedUtf8BytesAppend(a, b');
      var x, y, last := ModifiedUtf8Bytes(a + b'), ModifiedUtf8Bytes(b'), ModifiedUnitBytes(c);
      assert ModifiedUtf8Bytes(a + b) == x + last;
      assert ModifiedUtf8Bytes(b) == y + last;
      AppendAssoc(ModifiedUtf8Bytes(a), y, last);
    }
  }

  // ---------------------------------------------------------------------------
  // Decoding: java.nio's UTF-8 decoder on the 1-, 2- and 3-byte forms

  predicate IsContinuation(b: byte)
  {
    0x80 <= b < 0xC0
  }

  function Prepend(c: CodeUnit, rest: Option<seq<CodeUnit>>): Option<seq<CodeUnit>>
  {
    match rest
    case None => None
    case Some(s) => Some([c] + s)
  }

  /** Strict UTF-8 decoding limited to the 1-, 2- and 3-byte forms: overlong forms
      and encoded surrogates are rejected, as a strict decoder must. `None` stands for
      every input outside that well-formed part, whose decoding is not modelled. */
  function DecodeUtf8(b: seq<byte>): Option<seq<CodeUnit>>
    decreases |b|
  {
    if b == [] then Some([])
    else if b[0] < 0x80 then Prepend(b[0], DecodeUtf8(b[1..]))
    else if 0xC0 <= b[0] < 0xE0 && |b| >= 2 && IsContinuation(b[1]) then
      var u := (b[0] as int - 0xC0) * 0x40 + (b[1] as int - 0x80);
      if u < 0x80 then None else Prepend(u, DecodeUtf8(b[2..]))
    else if 0xE0 <= b[0] < 0xF0 && |b| >= 3 && IsContinuation(b[1]) && IsContinuation(b[2]) then
      var u := (b[0] as int - 0xE0) * 0x1000 + (b[1] as int - 0x80) * 0x40 + (b[2] as int - 0x80);
      if u < 0x800 || IsSurrogate(u) then None else Prepend(u, DecodeUtf8(b[3..]))
    else None
  }

  function PrependAll(a: seq<CodeUnit>, rest: Option<seq<CodeUnit>>): Option<seq<CodeUnit>>
  {
    match rest
    case None => None
    case Some(s) => Some(a + s)
  }

  /** A non-surrogate code unit decodes back from its bytes, whatever follows. */
  lemma UnitDecodes(c: CodeUnit, rest: seq<byte>)
    requires !IsSurrogate(c)
    ensures DecodeUtf8(UnitBytes(c) + rest) == Prepend(c, DecodeUtf8(rest))
  {
    if c <= 0x7F {
      assert (UnitBytes(c) + rest)[1..] == rest;
    } else if c > 0x7FF {
      ThreeBytesDecode(c, c / 0x1000, c / 0x40 % 0x40, c % 0x40, rest);
    } else {
      TwoBytesDecode(c, c / 0x40 % 0x20, c % 0x40, rest);
    }
  }

  lemma TwoBytesDecode(c: CodeUnit, hi: int, lo: int, rest: seq<byte>)
    requires 0x7F < c <= 0x7FF && hi == c / 0x40 % 0x20 && lo == c % 0x40
    ensures DecodeUtf8(UnitBytes(c) + rest) == Prepend(c, DecodeUtf8(rest))
  {
    assert c == hi * 0x40 + lo;
    var b := UnitBytes(c) + rest;
    assert b[0] == 0xC0 + hi && b[1] == 0x80 + lo;
    assert b[2..] == rest;
  }

  lemma ThreeBytesDecode(c: CodeUnit, hi: int, mid: int, lo: int, rest: seq<byte>)
    requires 0x7FF < c && !IsSurrogate(c) && hi == c / 0x1000 && mid == c / 0x40 % 0x40 && lo == c % 0x40
    ensures DecodeUtf8(UnitBytes(c) + rest) == Prepend(c, DecodeUtf8(rest))
  {
    assert c == hi * 0x1000 + mid * 0x40 + lo;
    assert hi < 0x10 && hi % 0x10 == hi;
    var b := UnitBytes(c) + rest;
    assert b[0] == 0xE0 + hi && b[1] == 0x80 + mid && b[2] == 0x80 + lo;
    assert b[3..] == rest;
  }

  /** A surrogate half, encoded on its own, is rejected by the decoder. */
  lemma SurrogateRejected(c: CodeUnit, rest: seq<byte>)
    requires IsSurrogate(c)
    ensures DecodeUtf8(UnitBytes(c) + rest) == None
  {
    var b := UnitBytes(c) + rest;
    assert c == c / 0x1000 * 0x1000 + c / 0x40 % 0x40 * 0x40 + c % 0x40;
    assert b[0] == 0xE0 + c / 0x1000 % 0x10;
  }

  lemma PrependAllCons(c: CodeUnit, tail: seq<CodeUnit>, rest: Option<seq<CodeUnit>>)
    ensures Prepend(c, PrependAll(tail, rest)) == PrependAll([c] + tail, rest)
  {
    if rest.Some? {
      assert [c] + (tail + rest.value) == ([c] + tail) + rest.value;
    }
  }

  /** Decoding runs through an encoded surrogate-free prefix unit by unit. */
  lemma {:induction false} DecodeEncodedPrefix(a: seq<CodeUnit>, rest: seq<byte>)
    requires NoSurrogates(a)
    ensures DecodeUtf8(Utf8Bytes(a) + rest) == PrependAll(a, DecodeUtf8(rest))
    decreases |a|
  {
    if a == [] {
      assert Utf8Bytes(a) + rest == rest;
      assert PrependAll(a, DecodeUtf8(rest)) == DecodeUtf8(rest) by {
        if DecodeUtf8(rest).Some? {
          assert a + DecodeUtf8(rest).value == DecodeUtf8(rest).value;
        }
      }
    } else {
      var c, tail := a[0], a[1..];
      assert a == [c] + tail;
      assert NoSurrogates(tail) by {
        forall i | 0 <= i < |tail| ensures !IsSurrogate(tail[i]) {
          assert tail[i] == a[i + 1];
        }
      }
      var tailBytes := Utf8Bytes(tail) + rest;
      calc {
        Utf8Bytes(a) + rest;
        { Utf8BytesAppend([c], tail); }
        Utf8Bytes([c]) + Utf8Bytes(tail) + rest;
        { assert [c][..0] == []; }
        UnitBytes(c) + tailBytes;
      }
      calc {
        DecodeUtf8(UnitBytes(c) + tailBytes);
        { UnitDecodes(c, tailBytes); }
        Prepend(c, DecodeUtf8(tailBytes));
        { DecodeEncodedPrefix(tail, rest); }
        Prepend(c, PrependAll(tail, DecodeUtf8(rest)));
        { PrependAllCons(c, tail, DecodeUtf8(rest)); }
        PrependAll(a, DecodeUtf8(rest));
      }
    }
  }

  /** The writer's bytes decode back to the same text exactly when the text holds
      no surrogate code unit (characters outside the Basic Multilingual Plane are
      written as two three-byte halves, which a UTF-8 decoder rejects). */
  lemma Utf8RoundTrip(s: seq<CodeUnit>)
    ensures DecodeUtf8(Utf8Bytes(s)) == Some(s) <==> NoSurrogates(s)
  {
    if NoSurrogates(s) {
      DecodeEncodedPrefix(s, []);
      assert Utf8Bytes(s) + [] == Utf8Bytes(s);
      assert s + [] == s;
    } else {
      SurrogateBreaksDecoding(s);
    }
  }

  lemma Utf8BytesSnoc(a: seq<CodeUnit>, c: CodeUnit)
    ensures Utf8Bytes(a + [c]) == Utf8Bytes(a) + UnitBytes(c)
  {
    assert (a + [c])[..|a|] == a;
  }

  /** A text cut around one of its units. */
  lemma CutAround<T>(s: seq<T>, j: nat)
    requires j < |s|
    ensures s == s[..j] + [s[j]] + s[j + 1..]
  {
  }

  lemma Utf8BytesSplit(a: seq<CodeUnit>, c: CodeUnit, rest: seq<CodeUnit>)
    ensures Utf8Bytes(a + [c] + rest) == Utf8Bytes(a) + (UnitBytes(c) + Utf8Bytes(rest))
  {
    Utf8BytesAppend(a + [c], rest);
    Utf8BytesSnoc(a, c);
  }

  lemma Utf8BytesAround(s: seq<CodeUnit>, j: nat)
    requires j < |s|
    ensures Utf8Bytes(s) == Utf8Bytes(s[..j]) + (UnitBytes(s[j]) + Utf8Bytes(s[j + 1..]))
  {
    CutAround(s, j);
    Utf8BytesSplit(s[..j], s[j], s[j + 1..]);
  }

  lemma SurrogateBreaksDecoding(s: seq<CodeUnit>)
    requires !NoSurrogates(s)
    ensures DecodeUtf8(Utf8Bytes(s)) == None
  {
    var j := FirstSurrogate(s);
    var restBytes := Utf8Bytes(s[j + 1..]);
    Utf8BytesAround(s, j);
    DecodeEncodedPrefix(s[..j], UnitBytes(s[j]) + restBytes);
    SurrogateRejected(s[j], restBytes);
  }

  /** writeUTF's two bytes C0 80 for U+0000 are an overlong form, which the decoder
      rejects. */
  lemma NulRejected(rest: seq<byte>)
    ensures DecodeUtf8(ModifiedUnitBytes(0) + rest) == None
  {
    var b := ModifiedUnitBytes(0) + rest;
    assert b[0] == 0xC0 && b[1] == 0x80;
  }

  lemma ModifiedUtf8Cons(c: CodeUnit, tail: seq<CodeUnit>)
    ensures ModifiedUtf8Bytes([c] + tail) == ModifiedUnitBytes(c) + ModifiedUtf8Bytes(tail)
  {
    assert [c][..0] == [];
    ModifiedUtf8BytesAppend([c], tail);
  }

  /** So the modified UTF-8 of any text holding U+0000 does not decode. */
  lemma {:induction false} NulBreaksDecoding(s: seq<CodeUnit>)
    requires !NoNul(s)
    ensures DecodeUtf8(ModifiedUtf8Bytes(s)) == None
    decreases |s|
  {
    var c, tail := s[0], s[1..];
    assert s == [c] + tail;
    ModifiedUtf8Cons(c, tail);
    var rest := ModifiedUtf8Bytes(tail);
    if c == 0 {
      NulRejected(rest);
    } else if IsSurrogate(c) {
      SurrogateRejected(c, rest);
    } else {
      assert !NoNul(tail) by {
        var i :| 0 <= i < |s| && s[i] == 0;
        assert tail[i - 1] == s[i];
      }
      NulBreaksDecoding(tail);
      UnitDecodes(c, rest);
    }
  }

  /** The index of the first surrogate of a text that holds one. */
  function FirstSurrogate(s: seq<CodeUnit>): (j: nat)
    requires !NoSurrogates(s)
    ensures j < |s| && IsSurrogate(s[j]) && NoSurrogates(s[..j])
  {
    if IsSurrogate(s[0]) then 0
    else
      assert !NoSurrogates(s[1..]) by {
        var i :| 0 <= i < |s| && IsSurrogate(s[i]);
        assert s[1..][i - 1] == s[i];
      }
      1 + FirstSurrogate(s[1..])
  }
}

=== FILE: writer.dfy ===
/** Amf0Writer: an append-only byte sink. Every method appends to `out` (the
    ByteArrayOutputStream under the DataOutputStream) and is proved to append
    exactly what the functions of module Encoding say. */
module Amf0Writer {
  import opened AmfTypes
  import opened Wire
  import opened Values
  import opened Encoding

  class Encoder {
    /** The bytes written so far. */
    var out: seq<byte>

    constructor ()
      ensures out == []
    {
      out := [];
    }

    /** getBytes: the concatenation of all writes so far. */
    method GetBytes() returns (bytes: seq<byte>)
      ensures bytes == out
    {
      bytes := out;
    }

    /** write: dispatch on the kind of value. `ok` is false when an IOException
        escapes, in which case `out` keeps what was written before it. */
    method Write(value: Value) returns (ok: bool)
      modifies this
      ensures out == old(out) + Encode(value).bytes
      ensures ok == Encode(value).ok
      decreases value
    {
      match value
      case Null =>
        out := out + [NullMarker];
        ok := true;
      case Number(bits) =>
        WriteDouble(bits);
        ok := true;
      case Boolean(b) =>
        WriteBoolean(b);
        ok := true;
      case Str(s) =>
        WriteString(s);
        ok := true;
      case Date(time) =>
        WriteDate(time);
        ok := true;
      case Xml(text) =>
        ok := WriteXmlDocument(text);
      case StrictArray(items) =>
        ok := WriteCollection(items);
      case EcmaArray(entries) =>
        ok := WriteEcmaArray(entries);
      case Object(fields) =>
        ok := WriteObject(fields);
    }

    method WriteDouble(bits: Word)
      modifies this
      ensures out == old(out) + [NumberMarker] + bits
    {
      out := out + [NumberMarker];
      out := out + bits;
    }

    method WriteBoolean(b: bool)
      modifies this
      ensures out == old(out) + [BooleanMarker, if b then 1 else 0]
    {
      out := out + [BooleanMarker];
      out := out + [if b then 1 else 0];
    }

    /** writeString: a first loop sums the code units' byte lengths into `utflen`;
        the form is chosen by it; a second loop fills a byte array of exactly the
        announced size through a running index. */
    method WriteString(value: seq<CodeUnit>)
      modifies this
      ensures out == old(out) + StringBytes(value)
    {
      var strlen := |value|;
      var utflen := Utf8LengthOf(value);

      var marker: byte;
      var size: nat;
      if utflen <= 0xFFFF {
        marker, size := StringMarker, utflen + 3;
      } else {
        marker, size := LongStringMarker, utflen + 5;
      }

      var bytearr := new byte[size];
      var count := 0;
      bytearr[count] := marker;
      count := count + 1;
      if marker == LongStringMarker {
        bytearr[count] := utflen / 0x100_0000 % 0x100;
        count := count + 1;
        bytearr[count] := utflen / 0x1_0000 % 0x100;
        count := count + 1;
      }
      bytearr[count] := utflen / 0x100 % 0x100;
      count := count + 1;
      bytearr[count] := utflen % 0x100;
      count := count + 1;

      ghost var header := StringHeader(utflen);
      assert bytearr[..count] == header by {
        if utflen <= 0xFFFF {
          assert bytearr[..count] == [bytearr[0], bytearr[1], bytearr[2]];
        } else {
          assert bytearr[..count] == [bytearr[0], bytearr[1], bytearr[2], bytearr[3], bytearr[4]];
        }
      }
      assert size == |header| + utflen;

      for i := 0 to strlen
        invariant count == |header| + Utf8Length(value[..i]) <= size
        invariant bytearr[..count] == header + Utf8Bytes(value[..i])
        invariant out == old(out)
      {
        var c := value[i];
        FillStep(value, i);
        AppendAssoc(header, Utf8Bytes(value[..i]), UnitBytes(c));
        count := PutUnit(bytearr, count, c);
      }
      WholePrefix(value);
      assert count == size;
      out := out + bytearr[..count];
    }

    method WriteDate(time: Word)
      modifies this
      ensures out == old(out) + [DateMarker] + time + Be16(0)
    {
      out := out + [DateMarker];
      out := out + time;
      out := out + Be16(0);
    }

    /** DataOutputStream.writeUTF, which throws before writing when the modified
        UTF-8 bytes number more than 65535. */
    method WriteUtf(s: seq<CodeUnit>) returns (ok: bool)
      modifies this
      ensures out == old(out) + Utf(s).bytes
      ensures ok == Utf(s).ok
    {
      var bytes := ModifiedUtf8Bytes(s);
      if |bytes| > 0xFFFF {
        ok := false;
      } else {
        out := out + Be16(|bytes|) + bytes;
        ok := true;
      }
    }

    /** writeXmlDocument, given the text the transformer produced. */
    method WriteXmlDocument(text: seq<CodeUnit>) returns (ok: bool)
      modifies this
      ensures out == old(out) + Encode(Xml(text)).bytes
      ensures ok == Encode(Xml(text)).ok
    {
      out := out + [XmlDocumentMarker];
      ok := WriteUtf(text);
    }

    /** writeCollection, and writeObjectsArray which writes the same bytes: marker,
        element count, then each element until one throws. */
    method WriteCollection(items: seq<Value>) returns (ok: bool)
      modifies this
      ensures out == old(out) + Encode(StrictArray(items)).bytes
      ensures ok == Encode(StrictArray(items)).ok
      decreases items
    {
      ghost var header := [StrictArrayMarker] + Be32(|items|);
      AppendAssoc(out, [StrictArrayMarker], Be32(|items|));
      out := out + [StrictArrayMarker];
      out := out + Be32(|items|);
      ghost var start := out;
      var i := 0;
      while i < |items|
        invariant 0 <= i <= |items|
        invariant EncodeItems(items[..i]).ok
        invariant out == start + EncodeItems(items[..i]).bytes
      {
        ItemsStep(items, i);
        AppendAssoc(start, EncodeItems(items[..i]).bytes, Encode(items[i]).bytes);
        var itemOk := Write(items[i]);
        if !itemOk {
          ItemsStopAtFailure(items, i + 1);
          ItemsWritten(items);
          AppendAssoc(old(out), header, EncodeItems(items).bytes);
          return false;
        }
        i := i + 1;
      }
      WholePrefix(items);
      ItemsWritten(items);
      AppendAssoc(old(out), header, EncodeItems(items).bytes);
      ok := true;
    }

    /** writeEcmaArray: marker, entry count, then each key by writeUTF and its
        value, with no end marker. */
    method WriteEcmaArray(entries: seq<Entry>) returns (ok: bool)
      modifies this
      ensures out == old(out) + Encode(EcmaArray(entries)).bytes
      ensures ok == Encode(EcmaArray(entries)).ok
      decreases entries
    {
      ghost var header := [EcmaArrayMarker] + Be32(|entries|);
      AppendAssoc(out, [EcmaArrayMarker], Be32(|entries|));
      out := out + [EcmaArrayMarker];
      out := out + Be32(|entries|);
      ghost var start := out;
      var i := 0;
      while i < |entries|
        invariant 0 <= i <= |entries|
        invariant EncodeEntries(entries[..i]).ok
        invariant out == start + EncodeEntries(entries[..i]).bytes
      {
        var e := entries[i];
        EntriesStep(entries, i);
        ThenAfterOk(EncodeEntries(entries[..i]), Then(Utf(e.key), Encode(e.value)));
        var keyOk := WriteUtf(e.key);
        if !keyOk {
          EntriesStopAtFailure(entries, i + 1);
          EntriesWritten(entries);
          AppendAssoc(old(out), header, EncodeEntries(entries).bytes);
          return false;
        }
        ThenAfterOk(Utf(e.key), Encode(e.value));
        AppendAssoc(start, EncodeEntries(entries[..i]).bytes, Utf(e.key).bytes + Encode(e.value).bytes);
        AppendAssoc(start + EncodeEntries(entries[..i]).bytes, Utf(e.key).bytes, Encode(e.value).bytes);
        var valueOk := Write(e.value);
        if !valueOk {
          EntriesStopAtFailure(entries, i + 1);
          EntriesWritten(entries);
          AppendAssoc(old(out), header, EncodeEntries(entries).bytes);
          return false;
        }
        i := i + 1;
      }
      WholePrefix(entries);
      EntriesWritten(entries);
      AppendAssoc(old(out), header, EncodeEntries(entries).bytes);
      ok := true;
    }

    /** writeObject: marker, then each field's name and value, a null marker in
        place of a value that could not be read or written, then 0x00 0x00 0x09.
        Only a name that writeUTF rejects ends the object early. */
    method WriteObject(fields: seq<Field>) returns (ok: bool)
      modifies this
      ensures out == old(out) + Encode(Object(fields)).bytes
      ensures ok == Encode(Object(fields)).ok
      decreases fields
    {
      out := out + [ObjectMarker];
      ghost var start := out;
      var i := 0;
      while i < |fields|
        invariant 0 <= i <= |fields|
        invariant EncodeFields(fields[..i]).ok
        invariant out == start + EncodeFields(fields[..i]).bytes
      {
        var f := fields[i];
        FieldsStep(fields, i);
        var nameOk := WriteUtf(f.name);
        if !nameOk {
          FieldsStopAtFailure(fields, i + 1);
          FieldsWritten(fields);
          AppendAssoc(old(out), [ObjectMarker], EncodeFields(fields).bytes);
          return false;
        }
        ThenAfterOk(Utf(f.name), Done(FieldValueBytes(f.read)));
        AppendAssoc(start, EncodeFields(fields[..i]).bytes, Utf(f.name).bytes + FieldValueBytes(f.read));
        AppendAssoc(start + EncodeFields(fields[..i]).bytes, Utf(f.name).bytes, FieldValueBytes(f.read));
        WriteFieldValue(f.read);
        i := i + 1;
      }
      WholePrefix(fields);
      FieldsWritten(fields);
      ghost var body := EncodeFields(fields).bytes;
      AppendAssoc(old(out), [ObjectMarker], body);
      AppendAssoc(old(out), [ObjectMarker] + body, [0, 0, ObjectEndMarker]);
      out := out + [0];
      out := out + [0];
      out := out + [ObjectEndMarker];
      assert out == old(out) + [ObjectMarker] + body + [0, 0, ObjectEndMarker];
      ok := true;
    }

    /** The value part of one field in writeObject: an exception from reading the
        field or from writing its value is caught and a null marker written. */
    method WriteFieldValue(read: FieldRead)
      modifies this
      ensures out == old(out) + FieldValueBytes(read)
      decreases read
    {
      match read
      case Unreadable =>
        out := out + [NullMarker];
      case Readable(x) =>
        var valueOk := Write(x);
        if !valueOk {
          out := out + [NullMarker];
        }
    }
  }

  /** One step of writeString's second loop, on the functions: the next unit's
      bytes extend the prefix's, and still fit in the announced length. */
  lemma FillStep(value: seq<CodeUnit>, i: nat)
    requires i < |value|
    ensures Utf8Bytes(value[..i + 1]) == Utf8Bytes(value[..i]) + UnitBytes(value[i])
    ensures Utf8Length(value[..i + 1]) == Utf8Length(value[..i]) + UnitLength(value[i])
    ensures Utf8Length(value[..i + 1]) <= Utf8Length(value)
  {
    PrefixStep(value, i);
    PrefixWithin(value, i);
  }

  lemma PrefixWithin(value: seq<CodeUnit>, i: nat)
    requires i < |value|
    ensures Utf8Length(value[..i + 1]) <= Utf8Length(value)
  {
    Utf8LengthAppend(value[..i + 1], value[i + 1..]);
    assert value[..i + 1] + value[i + 1..] == value;
  }

  /** The first loop of writeString: the number of bytes the code units take. */
  method Utf8LengthOf(value: seq<CodeUnit>) returns (utflen: nat)
    ensures utflen == Utf8Length(value)
  {
    utflen := 0;
    for i := 0 to |value|
      invariant utflen == Utf8Length(value[..i])
    {
      var c := value[i];
      if c <= 0x7F {
        utflen := utflen + 1;
      } else if c > 0x7FF {
        utflen := utflen + 3;
      } else {
        utflen := utflen + 2;
      }
      assert value[..i + 1][..i] == value[..i];
    }
    assert value[..|value|] == value;
  }

  /** The body of writeString's second loop for one code unit: its one, two or
      three bytes stored at `count`, which then moves past them. */
  method PutUnit(bytearr: array<byte>, count: nat, c: CodeUnit) returns (next: nat)
    requires count + UnitLength(c) <= bytearr.Length
    modifies bytearr
    ensures next == count + UnitLength(c)
    ensures bytearr[..next] == old(bytearr[..count]) + UnitBytes(c)
  {
    next := count;
    if c <= 0x7F {
      bytearr[next] := c;
      next := next + 1;
    } else if c > 0x7FF {
      bytearr[next] := 0xE0 + c / 0x1000 % 0x10;
      next := next + 1;
      bytearr[next] := 0x80 + c / 0x40 % 0x40;
      next := next + 1;
      bytearr[next] := 0x80 + c % 0x40;
      next := next + 1;
    } else {
      bytearr[next] := 0xC0 + c / 0x40 % 0x20;
      next := next + 1;
      bytearr[next] := 0x80 + c % 0x40;
      next := next + 1;
    }
  }
}
